=== FILE: README.md ===
# Ring trigger engine: a Dafny model

This project models the core of a signal-alert web app. The app watches a list of scheduled trading signals. Once a second it checks which of them are due, and it rings for each due signal. A ring plays the user's custom ringtone in a loop, or a short fallback beep. It also records the ring state, and a wake lock keeps the screen on. A 5-minute dedup window stops the same occurrence from ringing twice. A "ring off" button stops every sound the engine started. A Set Ring button opens the ringtone chooser on a short press and the antidelay dialog on a 3-second long press. The antidelay is an offset in seconds from 0 to 99 that is applied when checking signal times.

The model is sequential. Each `await` in `triggerRing` runs to completion before the next event, and the dedup check-and-insert happens before the first `await`. Time and browser events become explicit steps:

- `now` is a logical clock in milliseconds, and `AdvanceClock` moves it.
- Each dedup timer is stored as the instant it becomes due. `Expire` is that timer firing; it cannot fire early.
- The 3000 ms long-press timer is an armed timer id. `LongPressFires` is the browser running its callback, and `clearTimeout` removes the id.
- `checkSignalTime`, the wake-lock request and the outcome of `play()` are parameters.
- Calls out of the hooks are recorded in logs: `onSignalTriggered` in `triggered`, `releaseWakeLock` in `releasedLocks`, `scheduleAllSignalNotifications` in `rescheduled`.

Modules:

- `Optional`, `Signals`: `T | null`, and the signal with the three fields its key is made of.
- `Audio`: the browser objects the engine touches, as classes: media element, audio context, oscillator, and the context ref.
- `AudioUtils`: `createBeepAudio` and `playCustomRingtone`.
- `AudioInstances`: the `useAudioInstances` registry, as a class.
- `RingDedup`: the occurrence key, and `Fired`, the set of signals one tick fires, as functions with lemmas.
- `TickEffects`: what a run of fires does to the manager's state, as a relation between two state values.
- `RingManager`: the `useRingManager` hook as a class. `Tick` is proved against `Fired`.
- `JsParseInt`: JavaScript `parseInt` without a radix and integer `toString`, following section 19.2.5 of ECMA-262.
- `AntidelayManager`: the `useAntidelayManager` hook. Step functions over a state value carry the lemmas, and a class holds the handlers, each proved equal to its step function.

Points of the code worth knowing:

- Ring-off clears the ring state and releases the wake lock only when `isRinging` holds (src/hooks/useRingManager.ts:158-164). `Valid` makes every state that is not ringing hold no current signal and no lock, so ring-off always ends idle. The release is logged only when the engine was ringing.
- The hook has its own long-press detector (src/hooks/useAntidelayManager.ts:22-35), and the model includes it.
- `setRingOffButtonPressed(true)` and the other React state updates take effect once the handler returns; the model assigns them in the handler's order.
- A second mouse-down before mouse-up overwrites the timer reference without cancelling the first timer (src/hooks/useAntidelayManager.ts:29). The first timer can then still open the antidelay dialog after the button is released. `SecondPressOrphansFirstTimer` states this.
- Each fire runs `setWakeLock(lock)` with a newly requested lock (src/hooks/useRingManager.ts:64-65). Suppose a second signal with another key fires while the first still rings. Its lock then overwrites the first handle, and ring-off releases only the current handle (src/hooks/useRingManager.ts:162). The first lock is never released, unless `requestWakeLock` itself releases the lock it replaces. src/utils/wakeLockUtils.ts is not part of this model, so that remains unconfirmed. `OverlappingFiresLeakFirstLock` states this.

## Model

| member | source | states |
|---|---|---|
| RingDedup.KeyLayout | src/hooks/useRingManager.ts:28-30 | `getSignalKey` writes the timestamp, a dash, the asset, a dash and the direction: the key starts with the timestamp, ends with the direction, and is two characters longer than the three fields. |
| RingDedup.Fired | src/hooks/useRingManager.ts:91-95 | What one tick fires, in list order: a signal fires when it is due and its key is neither in the dedup set nor fired earlier in the tick. Everything fired is a signal of the list. |
| RingDedup.SameOccurrenceSameKey | src/hooks/useRingManager.ts:28-30 | Signals with equal timestamp, asset and direction always get equal keys. |
| RingDedup.SplitAtLastDash | src/hooks/useRingManager.ts:29 | Two texts joined to dash-free tails by a dash are equal only when heads and tails are equal. |
| RingDedup.KeyIdentifiesOccurrence | src/hooks/useRingManager.ts:28-30 | When neither timestamp nor direction contains a dash, equal keys mean the same occurrence, whatever dashes the asset holds (such as `EURUSD-OTC`). |
| RingDedup.KeyCollides | src/hooks/useRingManager.ts:28-30 | The key is not injective in general: two different signals whose fields contain dashes can share a key. |
| RingDedup.FiredAreDueAndFresh | src/hooks/useRingManager.ts:91-95 | Every signal a tick fires is in the monitored list, is due according to `checkSignalTime`, and had a key outside the dedup set. |
| RingDedup.FiredKeysDistinct | src/hooks/useRingManager.ts:37-49 | No two signals fired in one tick share a key, so a key listed twice fires once. |
| RingDedup.DueKeysMarked | src/hooks/useRingManager.ts:37-49 | After a tick, the key of every due signal in the list is in the dedup set. |
| RingDedup.FiresOncePerFreshKey | src/hooks/useRingManager.ts:86-96 | A due signal whose key is fresh fires exactly once in the tick, under its key. |
| RingDedup.AtMostOncePerKeyAcrossTicks | src/hooks/useRingManager.ts:48-58 | Over any run of ticks with no expiry, the fired keys are pairwise distinct, and none was in the dedup set at the start. |
| RingDedup.SuppressedTickFiresNothing | src/hooks/useRingManager.ts:37-40 | A tick in which every due signal's key is already in the set fires nothing. |
| TickEffects.Stamped | src/hooks/useRingManager.ts:52-58 | The timer map after a run of fires: its keys are the old keys plus the fired keys. |
| TickEffects.StampedValues | src/hooks/useRingManager.ts:52-58 | Every fired key holds the new deadline, and every other key keeps its own. |
| TickEffects.StampedTwice | src/hooks/useRingManager.ts:52-58 | Stamping two runs of fires one after the other with the same deadline is stamping their union once. |
| TickEffects.TickStep | src/hooks/useRingManager.ts:91-95 | Checking signal `i` against the dedup set the tick has built extends both `Fired` and the tick's effects from the first `i` signals to the first `i + 1`. |
| TickEffects.LoopCount | src/hooks/useRingManager.ts:74-78 | The number of fires that leave a looping element is at most the number of fires, and is zero without a ringtone. |
| TickEffects.BeepCount | src/utils/audioUtils.ts:33-43 | Every fire leaves either a looping element or a beep: the two counts add up to the number of fires. Without a ringtone, every fire beeps. |
| RingManager.StopElements | src/hooks/useRingManager.ts:129-135 | Every element in the list is paused and rewound to 0, and keeps its source and loop flag. |
| RingManager.CloseOpenContexts | src/hooks/useRingManager.ts:140-145 | Close is requested once per occurrence on each context that was not closed, and never on a closed one. |
| RingManager.StopAllAudio | src/hooks/useRingManager.ts:127-155 | The tracked elements and the page's elements are all stopped, each open tracked context gets one close request, and the context list ends empty. |
| RingManager.RingManager.constructor | src/hooks/useRingManager.ts:14-25 | Mounting gives an idle engine with empty refs, and monitoring is on exactly when the signal list is non-empty; `Valid` holds, so an armed interval always has signals to watch. |
| RingManager.RingManager.UpdateProps | src/hooks/useRingManager.ts:85-106 | A re-render with new arguments re-arms the interval exactly when the new list is non-empty, and touches no ring or dedup state. |
| RingManager.RingManager.AdvanceClock | src/hooks/useRingManager.ts:52-56 | Time passes without any timer callback running, so every other field is unchanged. |
| RingManager.RingManager.TriggerRing | src/hooks/useRingManager.ts:33-82 | A key already in the set changes nothing and calls nothing back. A fresh key is added to the set, and its 5-minute deadline is recorded under the same key. The fresh signal also becomes the ringing signal with the new wake lock, and is called back once. Exactly one element (on successful play) or one beep context is added. |
| RingManager.RingManager.Ring | src/hooks/useRingManager.ts:48-81 | The fresh-key path of `triggerRing`, with the same effects as above, and the invariant kept. |
| RingManager.RingManager.MarkRinging | src/hooks/useRingManager.ts:48-61 | The key is marked, its deadline recorded, and the ring state set to the signal and its wake lock. |
| RingManager.RingManager.PlayAndTrack | src/hooks/useRingManager.ts:72-78 | A returned element is appended to the tracked list, and a null result leaves it unchanged. Exactly one beep context is registered when there is no element. |
| RingManager.RingManager.Tick | src/hooks/useRingManager.ts:89-96 | One interval callback fires exactly `Fired` of the list, in order, from the dedup set it started with. The triggered log, the set and the ring state change accordingly. Every fired key gets the deadline now + 5 minutes and every other deadline is kept. One element is appended per fire whose ringtone plays and one beep context per other fire. Every appended element loops the current ringtone and is playing, and every appended context is open with no close request. The clock stands still and no wake lock is released. |
| RingManager.RingManager.CheckAndTrigger | src/hooks/useRingManager.ts:91-95 | A signal fires exactly when it is due and its key was fresh. Tracked elements from a given index on keep looping the ringtone, and registered contexts from a given index on stay open. A fire stamps its key with the deadline now + 5 minutes; no fire leaves the timer map as it was. A fire adds one fresh looping element when the ringtone plays, and one beep context otherwise. |
| RingManager.RingManager.Expire | src/hooks/useRingManager.ts:52-56 | A due 5-minute timer removes its key from both the set and the timer map, so set and map keys stay equal and the key can fire again. |
| RingManager.RingManager.HandleRingOff | src/hooks/useRingManager.ts:121-164 | All tracked and page elements are stopped, only open contexts get a close request, and both lists end empty. The ring state is cleared and the lock released only if the engine was ringing. The dedup state and the callbacks are untouched. |
| RingManager.RingManager.OverlappingFiresLeakFirstLock | src/hooks/useRingManager.ts:64-65 | Two fires on distinct fresh keys with different locks, then ring-off (src/hooks/useRingManager.ts:162): only the second lock is released, the first never is, and no handle refers to it any more. |
| RingManager.RingManager.RingOffPulseEnds | src/hooks/useRingManager.ts:124-125 | The 200 ms acknowledgement pulse ends, and nothing else changes. |
| RingManager.RingManager.Unmount | src/hooks/useRingManager.ts:109-118 | Unmounting cancels every dedup timer, empties the set and the map, and stops monitoring. |
| AudioUtils.IsTruthy | src/utils/audioUtils.ts:28 | The `if (customRingtone)` test: false exactly for null and for the empty string. |
| AudioUtils.CreateBeepAudio | src/utils/audioUtils.ts:2-24 | The beep is a fresh open context with an 800 Hz sine oscillator, started and stopped after 1000 ms. Exactly one context is registered when a registry is given, and none otherwise. |
| AudioUtils.PlayCustomRingtone | src/utils/audioUtils.ts:26-45 | Assuming the audio context can be created, the promise always resolves. A truthy ringtone that plays gives back a fresh, looping, playing element with no context registered. Otherwise the result is null, and exactly one fresh open beep context is registered. |
| AudioInstances.AudioInstances.constructor | src/hooks/useAudioInstances.ts:4-5 | The registry starts empty. |
| AudioInstances.AudioInstances.Add | src/hooks/useAudioInstances.ts:7-10 | Exactly one element is appended at the end, and earlier entries are kept. |
| AudioInstances.AudioInstances.ClearAll | src/hooks/useAudioInstances.ts:12-23 | Every element that was tracked is paused, rewound to 0 and has its source emptied, and the list ends empty. On an empty list this changes nothing. |
| AudioInstances.AudioInstances.RingtoneChanged | src/hooks/useAudioInstances.ts:26-29 | A changed ringtone clears the list, so no element registered before the change survives. An unchanged ringtone runs no effect: the list and every tracked element are left as they were. Either way each tracked element keeps its loop flag. |
| JsParseInt.TrimStart | src/hooks/useAntidelayManager.ts:88 | The trimmed text is no longer than the input and does not start with white space. |
| JsParseInt.TrimStartDropsWhitespace | src/hooks/useAntidelayManager.ts:88 | Trimming removes exactly a prefix made of white space: the result is a suffix of the input. |
| JsParseInt.DigitPrefixLength | src/hooks/useAntidelayManager.ts:88 | The digit run is the longest one: the character after it is not a digit of the radix. |
| JsParseInt.DigitPrefixAllDigits | src/hooks/useAntidelayManager.ts:88 | Every character of the digit run is a digit of the radix. |
| JsParseInt.ParseInt | src/hooks/useAntidelayManager.ts:88 | `parseInt` without a radix gives a number only when the text, after leading white space, starts with a decimal digit or a sign. |
| JsParseInt.IntToDecimal | src/hooks/useAntidelayManager.ts:34 | `toString` of a safe integer starts with a minus sign exactly when the integer is negative, and a digit follows the sign. |
| JsParseInt.NatToDecimal | src/hooks/useAntidelayManager.ts:34 | `toString` of a non-negative safe integer is non-empty, starts with a digit, and has no leading zero. |
| JsParseInt.NatToDecimalDigits | src/hooks/useAntidelayManager.ts:34 | `toString` of a non-negative safe integer writes decimal digits only. |
| JsParseInt.ValueOfDecimal | src/hooks/useAntidelayManager.ts:34 | The digits `toString` writes for a safe integer denote the number. |
| JsParseInt.ParseDecimal | src/hooks/useAntidelayManager.ts:88 | `parseInt(n.toString() + rest)` is `n` for every safe integer, and so for every antidelay 0..99, when `rest` does not start with a digit (nor, after a lone zero, with x or X). |
| JsParseInt.DecimalRunMagnitude | src/hooks/useAntidelayManager.ts:88 | After the sign, any run of decimal digits not opening with `0x` and followed by a non-digit reads as its value in radix 10. |
| JsParseInt.DecimalRunReads | src/hooks/useAntidelayManager.ts:88 | `parseInt` reads any run of decimal digits, leading zeros included, as its radix-10 value and ignores a non-digit tail: `007` is 7. |
| JsParseInt.PlusDecimalRun | src/hooks/useAntidelayManager.ts:88 | A plus sign before a decimal run keeps its value: `+42` is 42. |
| JsParseInt.MinusDecimalRun | src/hooks/useAntidelayManager.ts:88 | A minus sign before a decimal run negates its value. |
| JsParseInt.ParseSkipsWhitespace | src/hooks/useAntidelayManager.ts:88 | Leading white space does not change the result of `parseInt`. |
| JsParseInt.EmptyIsNaN | src/hooks/useAntidelayManager.ts:89 | The empty input is NaN. |
| JsParseInt.SignWithoutDigitIsNaN | src/hooks/useAntidelayManager.ts:89 | A sign that no decimal digit follows is NaN. |
| JsParseInt.NoLeadingDigitIsNaN | src/hooks/useAntidelayManager.ts:89 | Input starting with anything other than white space, a sign or a digit is NaN. |
| JsParseInt.BareHexPrefixIsNaN | src/hooks/useAntidelayManager.ts:88 | `0x` or `0X` with no hexadecimal digit after it is NaN, not zero. |
| JsParseInt.HexMagnitude | src/hooks/useAntidelayManager.ts:88 | After the sign, `0x` or `0X` and a run of hexadecimal digits followed by a non-digit read as the value of those digits in radix 16. |
| JsParseInt.HexPrefixReadsRadix16 | src/hooks/useAntidelayManager.ts:88 | With no radix given, `0x` or `0X` and any run of hexadecimal digits read in radix 16, and a tail that is no hexadecimal digit is ignored. |
| JsParseInt.MinusHexPrefix | src/hooks/useAntidelayManager.ts:88 | A minus sign before the `0x` prefix negates the hexadecimal value: `-0x1A` is -26. |
| JsParseInt.PlusHexPrefix | src/hooks/useAntidelayManager.ts:88 | A plus sign before the `0x` prefix keeps the hexadecimal value. |
| JsParseInt.MinusZeroIsZero | src/hooks/useAntidelayManager.ts:88-89 | `-0` passes the NaN and range check as 0. |
| AntidelayManager.ParseAntidelay | src/hooks/useAntidelayManager.ts:88-89 | An accepted value lies in 0..99 and is what `parseInt` read. A rejected input is NaN or out of range. |
| AntidelayManager.AcceptsExactlyInRange | src/hooks/useAntidelayManager.ts:88-89 | The decimal text of an integer is accepted exactly when the integer lies in 0..99, and then yields that integer. |
| AntidelayManager.AcceptsPaddedInput | src/hooks/useAntidelayManager.ts:88-89 | Leading white space and a non-digit tail do not change what the dialog accepts. |
| AntidelayManager.AcceptsDecimalRun | src/hooks/useAntidelayManager.ts:88-89 | Typed decimal text, with leading zeros and with or without a plus sign, is accepted exactly when its value is at most 99, and then yields that value. |
| AntidelayManager.RejectsNegativeDecimalRun | src/hooks/useAntidelayManager.ts:88-89 | A minus sign before a decimal run is rejected unless the digits are all zero, which reads as 0. |
| AntidelayManager.AcceptsZeroPadded | src/hooks/useAntidelayManager.ts:88-89 | The text `007` is accepted as 7 seconds. |
| AntidelayManager.AcceptsHexInput | src/hooks/useAntidelayManager.ts:88-89 | Hexadecimal text with the `0x` prefix is accepted exactly when its value is at most 99, and then yields that value: `0x1A` saves 26 seconds. |
| AntidelayManager.RejectsNegativeHexInput | src/hooks/useAntidelayManager.ts:88-89 | Negative hexadecimal text is rejected unless its digits are all zero, which reads as 0. |
| AntidelayManager.Initial | src/hooks/useAntidelayManager.ts:6-19 | The initial hook state satisfies the timer-id invariant. |
| AntidelayManager.EventsPreserveValid | src/hooks/useAntidelayManager.ts:22-108 | Every handler and the timer callback keep timer ids below the next one to be handed out. |
| AntidelayManager.ShortPressOpensRingSelection | src/hooks/useAntidelayManager.ts:22-58 | A short press with the antidelay dialog closed opens ring selection, and leaves no timer armed and the antidelay and input as they were. |
| AntidelayManager.LongPressOpensAntidelayDialog | src/hooks/useAntidelayManager.ts:22-58 | A press held until the timer fires opens the antidelay dialog with the antidelay in decimal, and does not open ring selection. |
| AntidelayManager.LeaveDisarmsPress | src/hooks/useAntidelayManager.ts:60-67 | Leaving after a press disarms that press's timer, opens no dialog, and releases the button. |
| AntidelayManager.SecondPressOrphansFirstTimer | src/hooks/useAntidelayManager.ts:29-51 | After two presses and one release, the first timer is still armed and can still open the antidelay dialog. |
| AntidelayManager.SubmitAcceptsExactlyInRange | src/hooks/useAntidelayManager.ts:86-102 | Submitting an integer's text sets the antidelay to it and closes the dialog with the input cleared exactly when it is in 0..99. Otherwise nothing changes. |
| AntidelayManager.SubmitReschedulesOnlyWhenAccepted | src/hooks/useAntidelayManager.ts:94-98 | Notifications are rescheduled with the saved signals exactly on an accepted submit with a non-empty signal list. |
| AntidelayManager.SubmitUneditedKeepsAntidelay | src/hooks/useAntidelayManager.ts:29-92 | Opening the dialog by a long press and submitting it unedited keeps an in-range antidelay and closes the dialog. |
| AntidelayManager.CancelKeepsAntidelay | src/hooks/useAntidelayManager.ts:104-108 | Cancel closes the dialog and empties the input, and keeps the antidelay and reschedules nothing. |
| AntidelayManager.AntidelayManager.constructor | src/hooks/useAntidelayManager.ts:6-19 | Dialogs closed, input empty, button released, no timer, and the props as given. |
| AntidelayManager.AntidelayManager.MouseDown | src/hooks/useAntidelayManager.ts:22-36 | Pressed, long-press flag cleared, and a new timer armed that captures the current antidelay. The reference points to it, and an earlier timer stays armed. |
| AntidelayManager.AntidelayManager.LongPressFires | src/hooks/useAntidelayManager.ts:29-35 | The long-press flag is set, the antidelay dialog opens, and the input is set to the captured antidelay in decimal. |
| AntidelayManager.AntidelayManager.MouseUp | src/hooks/useAntidelayManager.ts:38-58 | Released, the referenced timer cancelled and the reference nulled. Ring selection opens exactly when it was no long press and the antidelay dialog was closed. |
| AntidelayManager.AntidelayManager.MouseLeave | src/hooks/useAntidelayManager.ts:60-67 | Released, the referenced timer cancelled and the reference nulled, and no dialog opens. |
| AntidelayManager.AntidelayManager.ClearLongPressTimer | src/hooks/useAntidelayManager.ts:48-51 | `clearTimeout` on the referenced timer, if any, and the reference nulled. |
| AntidelayManager.AntidelayManager.RingSelectionClose | src/hooks/useAntidelayManager.ts:70-73 | The ring selection dialog closes and nothing else changes. |
| AntidelayManager.AntidelayManager.SetAntidelayInput | src/hooks/useAntidelayManager.ts:15 | The dialog's text is replaced and nothing else changes. |
| AntidelayManager.AntidelayManager.Submit | src/hooks/useAntidelayManager.ts:86-102 | The new state is `AfterSubmit` of the old one: accept and reschedule as stated above, or change nothing. |
| AntidelayManager.AntidelayManager.Cancel | src/hooks/useAntidelayManager.ts:104-108 | The new state is `AfterCancel` of the old one: dialog closed, input empty, all else unchanged. |

## Left out

- src/hooks/useAudioManager.ts is not part of this model: it covers the file input, `FileReader` conversion and blob-URL revocation, all browser I/O.
- Interleaving of `triggerRing`'s two `await`s with other events is not modelled; each call runs to completion. In the code, a ring-off issued while `requestWakeLock` is pending would be followed by `setWakeLock(lock)` with the engine idle. The model's invariant "not ringing ⇒ no wake lock" holds only because of this sequential reading. Worse, a ring-off issued while a custom ringtone's `play()` is pending empties the tracked list first (src/hooks/useRingManager.ts:121-136). The element is then pushed into the emptied list when `play()` resolves (src/hooks/useRingManager.ts:74-78), and it keeps looping until the next ring-off.
- React stale closures are not modelled: `handleRingOff` reads `isRinging` and `wakeLock`, and mouse-up reads `showAntidelayDialog`, as of the last render. The model uses the current values.
- `checkSignalTime`, `requestWakeLock`, and the outcome of `audio.play()` are parameters. `releaseWakeLock`, `onSignalTriggered` and `scheduleAllSignalNotifications` are only logged.
- `document.hidden`/`window.focus`, `console.log`, the Web Audio gain node and its 0.3 gain (floating point), and the oscillator-to-gain-to-destination wiring are not modelled.
- The page-wide `querySelectorAll('audio')` sweep is the `page` parameter of `HandleRingOff`; which elements the page holds is not modelled.
- The `if (audio)` / `if (context && …)` null guards in the `forEach` loops are not modelled: the lists hold non-null objects.
- `context.close()` is a recorded request; its asynchronous state change and its caught rejection are not modelled.
- RingManager.RingManager.Tick: does not state that the elements and contexts a tick appends are fresh objects. `CheckAndTrigger` states it for each fire, but carrying it through the loop goes beyond the solver budget.
- The long-press timer's 3000 ms delay is not modelled: `LongPressFires` may happen whenever the timer is armed, and the caller decides when.
- The interval's one-second period is not modelled: `Tick` is one callback run at the current clock, and the caller decides when ticks happen.
- Signal fields other than timestamp, asset and direction are not modelled; each of the three is the text it renders to in the key's template literal.
- AudioUtils.PlayCustomRingtone: creating the audio context is assumed to succeed. In the code, `new AudioContext()` can throw. In the no-ringtone branch (src/utils/audioUtils.ts:41) the promise then rejects. Inside the `.catch` handler (src/utils/audioUtils.ts:36) the throw rejects only the inner chain, so the returned promise stays pending forever. Either way `triggerRing` never reaches `onSignalTriggered` (src/hooks/useRingManager.ts:74-81), although the key was already marked (src/hooks/useRingManager.ts:49).
- JsParseInt.ParseDecimal: JavaScript's `toString` writes integers of magnitude 10^21 and above in exponent form, and is exact only below 2^53. The model writes every integer in plain, exact decimal, so its round trip holds for every integer, while JavaScript's holds for the safe integers. The dialog writes and reads antidelays in 0..99 only.
- JsParseInt.IntToDecimal: likewise exact, plain decimal for every integer, whereas JavaScript switches to exponent form from 10^21.
- JsParseInt.ParseInt: Unicode white space beyond the ECMA-262 WhiteSpace and LineTerminator sets is not needed. Very long digit runs are read exactly, whereas JavaScript rounds them to the nearest double.
- AntidelayManager.ParseAntidelay: the antidelay is an integer; a non-integer `antidelaySeconds` prop, which `toString` would write with a fraction, is not modelled.
- `handleUseDefaultSound` and `handleSetCustomSound` only forward to the parent's callbacks; they change no state here and are not modelled.
- The `preventDefault`/`stopPropagation` calls on the press events are not modelled.

=== FILE: antidelay_manager.dfy ===
/**
 * The antidelay configuration hook: the Set Ring button, which opens the
 * ring selection dialog on a short press and the antidelay dialog after a
 * 3000 ms long press, and the antidelay dialog, which accepts an integer
 * number of seconds from 0 to 99.
 *
 * The long-press `setTimeout` is an armed timer with an id; the browser
 * firing it is the `LongPressFires` event, and `clearTimeout` removes it
 * from `pendingTimers`. The timer callback shows the antidelay value that
 * was current when the button went down, so each armed timer keeps that
 * value. `scheduleAllSignalNotifications` is not part of this model; its
 * calls are recorded in `rescheduled`.
 */
module AntidelayManager {
  import opened Optional
  import opened Signals
  import opened JsParseInt

  /** The largest antidelay, in seconds, that the dialog accepts. */
  const MaxAntidelaySeconds: int := 99

  /**
   * The validation of the dialog's text: parseInt, then NaN and the range
   * 0..99 are rejected (`None`).
   */
  function ParseAntidelay(input: string): (r: Option<int>)
    ensures r.Some? ==> 0 <= r.value <= MaxAntidelaySeconds && ParseInt(input) == r
    ensures r.None? ==> ParseInt(input).None? || ParseInt(input).value < 0 || ParseInt(input).value > MaxAntidelaySeconds
  {
    match ParseInt(input)
    case Some(n) => if 0 <= n <= MaxAntidelaySeconds then Some(n) else None
    case None => None
  }

  /** The dialog accepts the decimal text of an integer exactly when it lies in 0..99, and then yields that integer. */
  lemma AcceptsExactlyInRange(n: int)
    ensures ParseAntidelay(IntToDecimal(n)) == if 0 <= n <= MaxAntidelaySeconds then Some(n) else None
  {
    ParseDecimal(n, []);
    assert IntToDecimal(n) + [] == IntToDecimal(n);
  }

  /** Leading white space and trailing text that is not a digit do not change what the dialog accepts. */
  lemma AcceptsPaddedInput(ws: string, n: nat, rest: string)
    requires forall i :: 0 <= i < |ws| ==> IsJsWhitespace(ws[i])
    requires rest == [] || !IsDigit(rest[0], 10)
    requires n != 0 || rest == [] || (rest[0] != 'x' && rest[0] != 'X')
    ensures ParseAntidelay(ws + (NatToDecimal(n) + rest)) == if n <= MaxAntidelaySeconds then Some(n) else None
  {
    ParseSkipsWhitespace(ws, NatToDecimal(n) + rest);
    ParseNonNegativeDecimal(n, rest);
  }

  /**
   * Typed text need not be what toString writes: a run of decimal digits,
   * with leading zeros or a plus sign, is accepted exactly when its value is
   * at most 99, so `007` saves 7 seconds and `+42` saves 42.
   */
  lemma AcceptsDecimalRun(d: string, rest: string)
    requires d != [] && forall i :: 0 <= i < |d| ==> IsDigit(d[i], 10)
    requires rest == [] || !IsDigit(rest[0], 10)
    requires !HasHexPrefix(d + rest)
    ensures ParseAntidelay(d + rest) == if ValueOf(d, 10) <= MaxAntidelaySeconds then Some(ValueOf(d, 10)) else None
    ensures ParseAntidelay(['+'] + (d + rest)) == if ValueOf(d, 10) <= MaxAntidelaySeconds then Some(ValueOf(d, 10)) else None
  {
    DecimalRunReads(d, rest);
    PlusDecimalRun(d, rest);
  }

  /** A minus sign before a decimal run is rejected unless its digits are all zero: `-00` saves 0. */
  lemma RejectsNegativeDecimalRun(d: string, rest: string)
    requires d != [] && forall i :: 0 <= i < |d| ==> IsDigit(d[i], 10)
    requires rest == [] || !IsDigit(rest[0], 10)
    requires !HasHexPrefix(d + rest)
    ensures ParseAntidelay(['-'] + (d + rest)) == if ValueOf(d, 10) == 0 then Some(0) else None
  {
    MinusDecimalRun(d, rest);
  }

  /** The zero-padded text `007` is accepted as 7. */
  lemma AcceptsZeroPadded()
    ensures ParseAntidelay("007") == Some(7)
  {
    var d := "007";
    assert d[..2] == "00" && "00"[..1] == "0" && "0"[..0] == [];
    assert ValueOf(d, 10) == 7;
    assert d == d + [];
    AcceptsDecimalRun(d, []);
  }

  /**
   * parseInt's `0x` prefix reaches the dialog: hexadecimal text is accepted
   * when its value is at most 99, so `0x1A` saves 26 seconds.
   */
  lemma AcceptsHexInput(x: char, d: string, rest: string)
    requires x == 'x' || x == 'X'
    requires d != [] && forall i :: 0 <= i < |d| ==> IsDigit(d[i], 16)
    requires rest == [] || !IsDigit(rest[0], 16)
    ensures ParseAntidelay(['0', x] + d + rest) == if ValueOf(d, 16) <= MaxAntidelaySeconds then Some(ValueOf(d, 16)) else None
  {
    HexPrefixReadsRadix16(x, d, rest);
  }

  /** Negative hexadecimal text is rejected unless its digits are all zero, since minus zero reads as 0. */
  lemma RejectsNegativeHexInput(x: char, d: string, rest: string)
    requires x == 'x' || x == 'X'
    requires d != [] && forall i :: 0 <= i < |d| ==> IsDigit(d[i], 16)
    requires rest == [] || !IsDigit(rest[0], 16)
    ensures ParseAntidelay(['-'] + (['0', x] + d + rest)) == if ValueOf(d, 16) == 0 then Some(0) else None
  {
    MinusHexPrefix(x, d, rest);
  }

  /** Everything the hook and its parent hold: the props, the dialog and button state, and the timers. */
  datatype PressState = PressState(
    savedSignals: seq<Signal>,
    antidelaySeconds: int,
    showAntidelayDialog: bool,
    showRingSelectionDialog: bool,
    antidelayInput: string,
    buttonPressed: bool,
    isLongPress: bool,
    longPressTimer: Option<nat>,
    pendingTimers: map<nat, int>,
    nextTimerId: nat,
    rescheduled: seq<seq<Signal>>)

  /** Timer ids are handed out in order, so an id that has not been handed out is never armed nor referenced. */
  predicate Valid(st: PressState) {
    && (forall id :: id in st.pendingTimers ==> id < st.nextTimerId)
    && (st.longPressTimer.Some? ==> st.longPressTimer.value < st.nextTimerId)
  }

  function Initial(savedSignals: seq<Signal>, antidelaySeconds: int): (st: PressState)
    ensures Valid(st)
  {
    PressState(savedSignals, antidelaySeconds, false, false, "", false, false, None, map[], 0, [])
  }

  /** Mouse or touch down: the button is pressed and a new long-press timer is armed; an earlier timer is not cancelled. */
  function AfterMouseDown(st: PressState): PressState {
    st.(buttonPressed := true, isLongPress := false,
        longPressTimer := Some(st.nextTimerId),
        pendingTimers := st.pendingTimers[st.nextTimerId := st.antidelaySeconds],
        nextTimerId := st.nextTimerId + 1)
  }

  /** The armed timer `id` fires: a long press, which opens the antidelay dialog filled with the value captured at mouse-down. */
  function AfterLongPress(st: PressState, id: nat): PressState
    requires id in st.pendingTimers
  {
    st.(isLongPress := true, showAntidelayDialog := true,
        antidelayInput := IntToDecimal(st.pendingTimers[id]),
        pendingTimers := st.pendingTimers - {id})
  }

  /** `clearTimeout` on the referenced timer, if any, and the reference set to null. */
  function CancelLongPress(st: PressState): PressState {
    match st.longPressTimer
    case None => st
    case Some(id) => st.(longPressTimer := None, pendingTimers := st.pendingTimers - {id})
  }

  /** Mouse or touch up: the timer is cancelled, and without a long press or an open antidelay dialog the ring selection opens. */
  function AfterMouseUp(st: PressState): PressState {
    var released := CancelLongPress(st.(buttonPressed := false));
    if !st.isLongPress && !st.showAntidelayDialog then released.(showRingSelectionDialog := true) else released
  }

  /** The pointer leaves the button: the timer is cancelled and no dialog opens. */
  function AfterMouseLeave(st: PressState): PressState {
    CancelLongPress(st.(buttonPressed := false))
  }

  function AfterRingSelectionClose(st: PressState): PressState {
    st.(showRingSelectionDialog := false)
  }

  function AfterSetInput(st: PressState, text: string): PressState {
    st.(antidelayInput := text)
  }

  /** Submit: an accepted value becomes the antidelay, closes the dialog and reschedules a non-empty signal list. */
  function AfterSubmit(st: PressState): PressState {
    match ParseAntidelay(st.antidelayInput)
    case None => st
    case Some(n) =>
      st.(antidelaySeconds := n, showAntidelayDialog := false, antidelayInput := "",
          rescheduled := if |st.savedSignals| > 0 then st.rescheduled + [st.savedSignals] else st.rescheduled)
  }

  function AfterCancel(st: PressState): PressState {
    st.(showAntidelayDialog := false, antidelayInput := "")
  }

  /** Every event keeps timer ids below the next one to be handed out. */
  lemma EventsPreserveValid(st: PressState, id: nat, text: string)
    requires Valid(st)
    ensures Valid(AfterMouseDown(st)) && Valid(AfterMouseUp(st)) && Valid(AfterMouseLeave(st))
    ensures id in st.pendingTimers ==> Valid(AfterLongPress(st, id))
    ensures Valid(AfterRingSelectionClose(st)) && Valid(AfterSetInput(st, text))
    ensures Valid(AfterSubmit(st)) && Valid(AfterCancel(st))
  {
  }

  /**
   * A short press (down, then up before the timer fires) with the antidelay
   * dialog closed opens the ring selection and leaves no timer armed by it.
   */
  lemma ShortPressOpensRingSelection(st: PressState)
    requires Valid(st) && !st.showAntidelayDialog
    ensures var r := AfterMouseUp(AfterMouseDown(st));
      && r.showRingSelectionDialog && !r.showAntidelayDialog && !r.buttonPressed
      && r.longPressTimer == None && r.pendingTimers == st.pendingTimers
      && r.antidelaySeconds == st.antidelaySeconds && r.antidelayInput == st.antidelayInput
  {
    assert st.nextTimerId !in st.pendingTimers;
    assert AfterMouseDown(st).pendingTimers - {st.nextTimerId} == st.pendingTimers;
  }

  /**
   * A long press (down, timer fires, up) opens the antidelay dialog showing
   * the antidelay in decimal, and not the ring selection.
   */
  lemma LongPressOpensAntidelayDialog(st: PressState)
    requires Valid(st)
    ensures var down := AfterMouseDown(st);
      && st.nextTimerId in down.pendingTimers
      && var r := AfterMouseUp(AfterLongPress(down, st.nextTimerId));
      && r.showAntidelayDialog && r.antidelayInput == IntToDecimal(st.antidelaySeconds)
      && r.showRingSelectionDialog == st.showRingSelectionDialog
      && !r.buttonPressed && r.longPressTimer == None && r.pendingTimers == st.pendingTimers
  {
    assert st.nextTimerId !in st.pendingTimers;
    assert AfterMouseDown(st).pendingTimers - {st.nextTimerId} == st.pendingTimers;
  }

  /** Leaving the button after pressing it disarms that press's timer and opens no dialog. */
  lemma LeaveDisarmsPress(st: PressState)
    requires Valid(st)
    ensures var r := AfterMouseLeave(AfterMouseDown(st));
      && st.nextTimerId !in r.pendingTimers && r.pendingTimers == st.pendingTimers
      && r.showAntidelayDialog == st.showAntidelayDialog
      && r.showRingSelectionDialog == st.showRingSelectionDialog
      && !r.buttonPressed && r.longPressTimer == None
  {
    assert st.nextTimerId !in st.pendingTimers;
    assert AfterMouseDown(st).pendingTimers - {st.nextTimerId} == st.pendingTimers;
  }

  /**
   * A second mouse-down before the first mouse-up overwrites the timer
   * reference, so the following mouse-up cancels only the second timer and
   * the first one can still open the antidelay dialog after the release.
   */
  lemma SecondPressOrphansFirstTimer(st: PressState)
    requires Valid(st)
    ensures var r := AfterMouseUp(AfterMouseDown(AfterMouseDown(st)));
      && st.nextTimerId in r.pendingTimers && !r.buttonPressed
      && AfterLongPress(r, st.nextTimerId).showAntidelayDialog
  {
    var d2 := AfterMouseDown(AfterMouseDown(st));
    assert d2.longPressTimer == Some(st.nextTimerId + 1);
    assert st.nextTimerId in d2.pendingTimers - {st.nextTimerId + 1};
  }

  /**
   * Submitting the decimal text of an integer sets the antidelay to it and
   * closes the dialog exactly when it lies in 0..99; otherwise nothing
   * changes at all.
   */
  lemma SubmitAcceptsExactlyInRange(st: PressState, n: int)
    ensures var r := AfterSubmit(AfterSetInput(st, IntToDecimal(n)));
      if 0 <= n <= MaxAntidelaySeconds then
        && r.antidelaySeconds == n && !r.showAntidelayDialog && r.antidelayInput == ""
        && r.showRingSelectionDialog == st.showRingSelectionDialog
      else
        r == AfterSetInput(st, IntToDecimal(n))
  {
    AcceptsExactlyInRange(n);
  }

  /** Notifications are rescheduled, with the saved signals, exactly on an accepted submit with a non-empty signal list. */
  lemma SubmitReschedulesOnlyWhenAccepted(st: PressState)
    ensures var r := AfterSubmit(st);
      && r.savedSignals == st.savedSignals
      && (if ParseAntidelay(st.antidelayInput).Some? && |st.savedSignals| > 0
          then r.rescheduled == st.rescheduled + [st.savedSignals]
          else r.rescheduled == st.rescheduled)
  {
  }

  /**
   * Opening the dialog by a long press and submitting it unedited keeps an
   * antidelay in 0..99 as it was, and closes the dialog.
   */
  lemma SubmitUneditedKeepsAntidelay(st: PressState)
    requires Valid(st) && 0 <= st.antidelaySeconds <= MaxAntidelaySeconds
    ensures var down := AfterMouseDown(st);
      && st.nextTimerId in down.pendingTimers
      && var r := AfterSubmit(AfterLongPress(down, st.nextTimerId));
      && r.antidelaySeconds == st.antidelaySeconds && !r.showAntidelayDialog && r.antidelayInput == ""
  {
    AcceptsExactlyInRange(st.antidelaySeconds);
  }

  /** Cancel closes the dialog and empties the input whatever it holds, and keeps the antidelay. */
  lemma CancelKeepsAntidelay(st: PressState)
    ensures var r := AfterCancel(st);
      && !r.showAntidelayDialog && r.antidelayInput == ""
      && r.antidelaySeconds == st.antidelaySeconds && r.rescheduled == st.rescheduled
  {
  }

  /** The hook's state and refs, with the parent's antidelay and signal list, updated in place by the handlers. */
  class AntidelayManager {
    var savedSignals: seq<Signal>
    var antidelaySeconds: int
    var showAntidelayDialog: bool
    var showRingSelectionDialog: bool
    var antidelayInput: string
    var setRingButtonPressed: bool
    var isLongPress: bool
    var longPressTimer: Option<nat>
    var pendingTimers: map<nat, int>
    var nextTimerId: nat
    var rescheduled: seq<seq<Signal>>

    ghost function Observe(): PressState
      reads this
    {
      PressState(savedSignals, antidelaySeconds, showAntidelayDialog, showRingSelectionDialog,
                 antidelayInput, setRingButtonPressed, isLongPress, longPressTimer, pendingTimers,
                 nextTimerId, rescheduled)
    }

    ghost predicate Inv()
      reads this
    {
      Valid(Observe())
    }

    constructor(savedSignals: seq<Signal>, antidelaySeconds: int)
      ensures Observe() == Initial(savedSignals, antidelaySeconds) && Inv()
    {
      this.savedSignals := savedSignals;
      this.antidelaySeconds := antidelaySeconds;
      showAntidelayDialog, showRingSelectionDialog := false, false;
      antidelayInput := "";
      setRingButtonPressed, isLongPress := false, false;
      longPressTimer := None;
      pendingTimers := map[];
      nextTimerId := 0;
      rescheduled := [];
    }

    method MouseDown()
      requires Inv()
      modifies this
      ensures Observe() == AfterMouseDown(old(Observe())) && Inv()
    {
      setRingButtonPressed := true;
      isLongPress := false;
      longPressTimer := Some(nextTimerId);
      pendingTimers := pendingTimers[nextTimerId := antidelaySeconds];
      nextTimerId := nextTimerId + 1;
    }

    method LongPressFires(id: nat)
      requires Inv() && id in pendingTimers
      modifies this
      ensures Observe() == AfterLongPress(old(Observe()), id) && Inv()
    {
      var captured := pendingTimers[id];
      pendingTimers := pendingTimers - {id};
      isLongPress := true;
      showAntidelayDialog := true;
      antidelayInput := IntToDecimal(captured);
    }

    method MouseUp()
      requires Inv()
      modifies this
      ensures Observe() == AfterMouseUp(old(Observe())) && Inv()
    {
      setRingButtonPressed := false;
      ClearLongPressTimer();
      if !isLongPress && !showAntidelayDialog {
        showRingSelectionDialog := true;
      }
    }

    method MouseLeave()
      requires Inv()
      modifies this
      ensures Observe() == AfterMouseLeave(old(Observe())) && Inv()
    {
      setRingButtonPressed := false;
      ClearLongPressTimer();
    }

    method ClearLongPressTimer()
      requires Inv()
      modifies this`longPressTimer, this`pendingTimers
      ensures Observe() == CancelLongPress(old(Observe())) && Inv()
    {
      if longPressTimer.Some? {
        pendingTimers := pendingTimers - {longPressTimer.value};
        longPressTimer := None;
      }
    }

    method RingSelectionClose()
      requires Inv()
      modifies this`showRingSelectionDialog
      ensures Observe() == AfterRingSelectionClose(old(Observe())) && Inv()
    {
      showRingSelectionDialog := false;
    }

    method SetAntidelayInput(text: string)
      requires Inv()
      modifies this`antidelayInput
      ensures Observe() == AfterSetInput(old(Observe()), text) && Inv()
    {
      antidelayInput := text;
    }

    method Submit()
      requires Inv()
      modifies this
      ensures Observe() == AfterSubmit(old(Observe())) && Inv()
    {
      var seconds := ParseInt(antidelayInput);
      if seconds.Some? && seconds.value >= 0 && seconds.value <= MaxAntidelaySeconds {
        antidelaySeconds := seconds.value;
        showAntidelayDialog := false;
        antidelayInput := "";
        if |savedSignals| > 0 {
          rescheduled := rescheduled + [savedSignals];
        }
      }
    }

    method Cancel()
      requires Inv()
      modifies this
      ensures Observe() == AfterCancel(old(Observe())) && Inv()
    {
      showAntidelayDialog := false;
      antidelayInput := "";
    }
  }
}

=== FILE: audio.dfy ===
/**
 * The browser audio objects the ring engine creates, mutates and stops:
 * media elements, Web Audio contexts and oscillators, and the React ref
 * that collects contexts for later clean-up. Only the fields the engine
 * touches are modelled.
 */
module Audio {
  import opened Optional

  /** An `HTMLAudioElement`. */
  class AudioElement {
    var src: string
    var loop: bool
    var paused: bool
    /** Playback position, in milliseconds. */
    var currentTime: int

    /** `new Audio(src)`: a paused element at position 0 that does not loop. */
    constructor (src: string)
      ensures this.src == src && !loop && paused && currentTime == 0
    {
      this.src := src;
      loop := false;
      paused := true;
      currentTime := 0;
    }

    /**
     * `play()`: whether the platform lets playback start (format supported,
     * autoplay allowed) is passed in as `succeeds`; the promise's outcome is `ok`.
     */
    method Play(succeeds: bool) returns (ok: bool)
      modifies this
      ensures ok == succeeds
      ensures paused == (old(paused) && !succeeds)
      ensures src == old(src) && loop == old(loop) && currentTime == old(currentTime)
    {
      ok := succeeds;
      if succeeds {
        paused := false;
      }
    }

    /** `pause()`: stops playback and keeps the position. */
    method Pause()
      modifies this
      ensures paused
      ensures src == old(src) && loop == old(loop) && currentTime == old(currentTime)
    {
      paused := true;
    }
  }

  /** An `AudioContext`; `closed` is `state === 'closed'`. */
  class AudioContext {
    var closed: bool
    /** How many times `close()` has been requested on this context. */
    var closeCalls: nat

    constructor ()
      ensures !closed && closeCalls == 0
    {
      closed := false;
      closeCalls := 0;
    }

    /** `close()`: the request is recorded; the state changes later, asynchronously. */
    method Close()
      modifies this
      ensures closeCalls == old(closeCalls) + 1 && closed == old(closed)
    {
      closeCalls := closeCalls + 1;
    }
  }

  /** The value of an `OscillatorNode`'s `type`. */
  datatype Waveform = Sine | Square | Sawtooth | Triangle

  /** An `OscillatorNode` of a given context. */
  class Oscillator {
    const context: AudioContext
    /** `frequency.value`, in hertz. */
    var frequency: nat
    var shape: Waveform
    var started: bool
    /** The scheduled `stop()`, in milliseconds after the start. */
    var stopAfterMs: Option<nat>

    /** `context.createOscillator()`: the Web Audio defaults, 440 Hz sine, not started. */
    constructor (context: AudioContext)
      ensures this.context == context
      ensures frequency == 440 && shape == Sine && !started && stopAfterMs == None
    {
      this.context := context;
      frequency := 440;
      shape := Sine;
      started := false;
      stopAfterMs := None;
    }

    method Start()
      modifies this
      ensures started
      ensures frequency == old(frequency) && shape == old(shape) && stopAfterMs == old(stopAfterMs)
    {
      started := true;
    }

    method StopAfter(ms: nat)
      modifies this
      ensures stopAfterMs == Some(ms)
      ensures frequency == old(frequency) && shape == old(shape) && started == old(started)
    {
      stopAfterMs := Some(ms);
    }
  }

  /** A `MutableRefObject<AudioContext[]>`: the contexts created so far. */
  class ContextRegistry {
    var current: seq<AudioContext>

    constructor ()
      ensures current == []
    {
      current := [];
    }
  }
}

=== FILE: audio_instances.dfy ===
/**
 * The audio-instance registry (src/hooks/useAudioInstances.ts): a list of
 * media elements that is appended to one at a time and cleared as a whole,
 * and cleared again whenever the configured ringtone changes.
 */
module AudioInstances {
  import opened Optional
  import opened Audio

  class AudioInstances {
    /** The `customRingtone` the hook last rendered with. */
    var ringtone: Option<string>
    /** `audioInstancesRef.current`. */
    var instances: seq<AudioElement>

    /** Mounting the hook: an empty list (the mount-time clear has nothing to do). */
    constructor (ringtone: Option<string>)
      ensures this.ringtone == ringtone && instances == []
    {
      this.ringtone := ringtone;
      instances := [];
    }

    /** `addAudioInstance`: one element appended at the end, earlier entries kept. */
    method Add(audio: AudioElement)
      modifies this
      ensures instances == old(instances) + [audio]
      ensures ringtone == old(ringtone)
    {
      instances := instances + [audio];
    }

    /**
     * `clearAllAudioInstances`: every tracked element is paused, rewound to 0
     * and detached from its source; then the list is empty. Clearing an empty
     * list changes nothing.
     */
    method ClearAll()
      modifies this, instances
      ensures instances == [] && ringtone == old(ringtone)
      ensures forall a :: a in old(instances) ==> a.paused && a.currentTime == 0 && a.src == ""
      ensures forall a :: a in old(instances) ==> a.loop == old(a.loop)
    {
      var i := 0;
      while i < |instances|
        invariant 0 <= i <= |instances|
        invariant instances == old(instances) && ringtone == old(ringtone)
        invariant forall j :: 0 <= j < i ==> instances[j].paused && instances[j].currentTime == 0 && instances[j].src == ""
        invariant forall a :: a in instances ==> a.loop == old(a.loop)
      {
        var audio := instances[i];
        audio.Pause();
        audio.currentTime := 0;
        audio.src := "";
        i := i + 1;
      }
      instances := [];
    }

    /**
     * A re-render with `ringtone`: the effect keyed on the ringtone runs only
     * when it differs from the last one, and then clears the list, so no
     * element registered before the change survives it.
     */
    method RingtoneChanged(newRingtone: Option<string>)
      modifies this, instances
      ensures ringtone == newRingtone
      ensures newRingtone != old(ringtone) ==> instances == []
      ensures newRingtone != old(ringtone) ==>
        forall a :: a in old(instances) ==> a.paused && a.currentTime == 0 && a.src == ""
      ensures newRingtone == old(ringtone) ==> instances == old(instances)
      ensures newRingtone == old(ringtone) ==> forall a :: a in old(instances) ==> unchanged(a)
      ensures forall a :: a in old(instances) ==> a.loop == old(a.loop)
    {
      if newRingtone != ringtone {
        ringtone := newRingtone;
        ClearAll();
      }
    }
  }
}

=== FILE: audio_utils.dfy ===
/**
 * Alert playback (src/utils/audioUtils.ts): the fallback beep and the
 * choice between a looping custom ringtone and that beep.
 */
module AudioUtils {
  import opened Optional
  import opened Audio

  /** The beep's fixed tone. */
  const BeepFrequencyHz: nat := 800
  const BeepDurationMs: nat := 1000

  /**
   * JavaScript truthiness of a `string | null`: `null` and the empty string
   * are both false, so an empty ringtone plays the default beep.
   */
  predicate IsTruthy(ringtone: Option<string>): (b: bool)
    ensures b <==> ringtone != None && ringtone != Some("")
  {
    ringtone.Some? && ringtone.value != ""
  }

  /**
   * `createBeepAudio`: a fresh context with an 800 Hz sine oscillator that is
   * started and stops after one second. Exactly one context is appended to
   * `registry` when one is supplied.
   */
  method CreateBeepAudio(registry: ContextRegistry?) returns (osc: Oscillator)
    modifies registry
    ensures fresh(osc) && fresh(osc.context)
    ensures osc.frequency == BeepFrequencyHz && osc.shape == Sine
    ensures osc.started && osc.stopAfterMs == Some(BeepDurationMs)
    ensures !osc.context.closed && osc.context.closeCalls == 0
    ensures registry != null ==> registry.current == old(registry.current) + [osc.context]
  {
    var context := new AudioContext();
    osc := new Oscillator(context);
    osc.frequency := BeepFrequencyHz;
    osc.shape := Sine;
    osc.Start();
    osc.StopAfter(BeepDurationMs);
    if registry != null {
      registry.current := registry.current + [context];
    }
  }

  /**
   * `playCustomRingtone`. `playSucceeds` is the outcome of the element's
   * `play()`. Every path returns (the promise never rejects): the playing,
   * looping element when a ringtone is given and starts, and otherwise null
   * after exactly one beep whose context is registered.
   */
  method PlayCustomRingtone(ringtone: Option<string>, playSucceeds: bool, registry: ContextRegistry?)
    returns (audio: AudioElement?)
    modifies registry
    ensures (audio != null) == (IsTruthy(ringtone) && playSucceeds)
    ensures audio != null ==>
      fresh(audio) && audio.src == ringtone.value && audio.loop && !audio.paused && audio.currentTime == 0
    ensures registry != null && audio != null ==> registry.current == old(registry.current)
    ensures registry != null && audio == null ==>
      |registry.current| == |old(registry.current)| + 1
      && registry.current[..|old(registry.current)|] == old(registry.current)
      && fresh(registry.current[|old(registry.current)|])
      && !registry.current[|old(registry.current)|].closed
      && registry.current[|old(registry.current)|].closeCalls == 0
  {
    if IsTruthy(ringtone) {
      var element := new AudioElement(ringtone.value);
      element.loop := true;
      var ok := element.Play(playSucceeds);
      if ok {
        audio := element;
      } else {
        var _ := CreateBeepAudio(registry);
        audio := null;
      }
    } else {
      var _ := CreateBeepAudio(registry);
      audio := null;
    }
  }
}

=== FILE: js_parse_int.dfy ===
/**
 * JavaScript's global `parseInt(string)` called without a radix, as used by
 * the antidelay dialog, and `Number.prototype.toString()` on integers, as
 * used to pre-fill it. JavaScript writes plain decimal digits only for
 * integers of magnitude below 10^21, and exactly only below 2^53; the model
 * writes every integer in plain, exact decimal, which agrees with
 * JavaScript on the safe integers and so on every antidelay 0..99. The steps follow section 19.2.5 of ECMA-262
 * (parseInt): leading white space is skipped, one sign is read, a `0x` or
 * `0X` prefix switches to radix 16, and the longest prefix of digits in
 * the radix is read; no digit at all gives NaN, here `None`.
 */
module JsParseInt {
  import opened Optional

  /** The white space and line terminators that parseInt skips (WhiteSpace and LineTerminator of ECMA-262). */
  predicate IsJsWhitespace(c: char) {
    || c == '\t' || c == '\U{000B}' || c == '\U{000C}' || c == ' ' || c == '\U{00A0}' || c == '\U{FEFF}'
    || c == '\n' || c == '\r' || c == '\U{2028}' || c == '\U{2029}'
    || c == '\U{1680}' || ('\U{2000}' <= c <= '\U{200A}') || c == '\U{202F}' || c == '\U{205F}' || c == '\U{3000}'
  }

  /** `s` without its leading white space. */
  function TrimStart(s: string): (r: string)
    ensures |r| <= |s|
    ensures r == [] || !IsJsWhitespace(r[0])
  {
    if s != [] && IsJsWhitespace(s[0]) then TrimStart(s[1..]) else s
  }

  /** Trimming removes exactly a prefix of white space: the rest is a suffix of the input. */
  lemma {:induction false} TrimStartDropsWhitespace(s: string)
    ensures var r := TrimStart(s);
      && r == s[|s| - |r|..]
      && forall i :: 0 <= i < |s| - |r| ==> IsJsWhitespace(s[i])
  {
    if s != [] && IsJsWhitespace(s[0]) {
      TrimStartDropsWhitespace(s[1..]);
    }
  }

  /** The value of `c` as a digit of any radix up to 36, or 36 when it is no digit. */
  function DigitValue(c: char): (v: nat)
    ensures v <= 36
  {
    if '0' <= c <= '9' then c as int - '0' as int
    else if 'a' <= c <= 'z' then c as int - 'a' as int + 10
    else if 'A' <= c <= 'Z' then c as int - 'A' as int + 10
    else 36
  }

  predicate IsDigit(c: char, radix: nat) {
    DigitValue(c) < radix
  }

  /** The length of the longest prefix of `s` made of digits of `radix`. */
  function DigitPrefixLength(s: string, radix: nat): (n: nat)
    ensures n <= |s|
    ensures n < |s| ==> !IsDigit(s[n], radix)
  {
    if s != [] && IsDigit(s[0], radix) then 1 + DigitPrefixLength(s[1..], radix) else 0
  }

  /** Every character of the prefix is a digit of the radix. */
  lemma {:induction false} DigitPrefixAllDigits(s: string, radix: nat)
    ensures forall i :: 0 <= i < DigitPrefixLength(s, radix) ==> IsDigit(s[i], radix)
  {
    if s != [] && IsDigit(s[0], radix) {
      DigitPrefixAllDigits(s[1..], radix);
    }
  }

  /** The number that the digits `ds` write in `radix`, most significant first. */
  function ValueOf(ds: string, radix: nat): nat
    decreases |ds|
  {
    if ds == [] then 0
    else ValueOf(ds[..|ds| - 1], radix) * radix + (if IsDigit(ds[|ds| - 1], radix) then DigitValue(ds[|ds| - 1]) else 0)
  }

  /** Whether `u` begins with the `0x` or `0X` prefix that selects radix 16. */
  predicate HasHexPrefix(u: string) {
    |u| >= 2 && u[0] == '0' && (u[1] == 'x' || u[1] == 'X')
  }

  /**
   * The digits after the sign: a `0x` or `0X` prefix selects radix 16,
   * and the longest run of digits in the radix is read.
   */
  function ParseMagnitude(u: string): Option<nat> {
    var radix := if HasHexPrefix(u) then 16 else 10;
    var body := if HasHexPrefix(u) then u[2..] else u;
    var n := DigitPrefixLength(body, radix);
    if n == 0 then None else Some(ValueOf(body[..n], radix))
  }

  /** Reads one optional sign in front of the magnitude; minus zero is the integer 0. */
  function ParseSigned(t: string): Option<int> {
    if t != [] && t[0] == '-' then
      match ParseMagnitude(t[1..])
      case None => None
      case Some(m) => Some(-(m as int))
    else if t != [] && t[0] == '+' then
      match ParseMagnitude(t[1..])
      case None => None
      case Some(m) => Some(m)
    else
      match ParseMagnitude(t)
      case None => None
      case Some(m) => Some(m)
  }

  /** `parseInt(s)`: `None` is NaN. A number is read only when the trimmed text starts with a digit or a sign. */
  function ParseInt(s: string): (r: Option<int>)
    ensures r.Some? ==> var t := TrimStart(s);
      t != [] && (IsDigit(t[0], 10) || t[0] == '-' || t[0] == '+')
  {
    ParseSigned(TrimStart(s))
  }

  function DecimalDigit(d: nat): (c: char)
    requires d < 10
    ensures IsDigit(c, 10) && DigitValue(c) == d
  {
    ('0' as int + d) as char
  }

  /**
   * `n.toString()` for a non-negative integer: its decimal digits, without
   * leading zeros (JavaScript agrees for n below 2^53).
   */
  function NatToDecimal(n: nat): (s: string)
    ensures |s| >= 1 && IsDigit(s[0], 10)
    ensures |s| > 1 ==> s[0] != '0'
  {
    if n < 10 then [DecimalDigit(n)] else NatToDecimal(n / 10) + [DecimalDigit(n % 10)]
  }

  /** toString writes decimal digits only (for n below 2^53 in JavaScript). */
  lemma {:induction false} NatToDecimalDigits(n: nat)
    ensures forall i :: 0 <= i < |NatToDecimal(n)| ==> IsDigit(NatToDecimal(n)[i], 10)
  {
    if n >= 10 {
      NatToDecimalDigits(n / 10);
    }
  }

  /** `n.toString()` for an integer: a minus sign exactly for negative `n`, then the digits of its magnitude. */
  function IntToDecimal(n: int): (r: string)
    ensures |r| >= 1 && ((r[0] == '-') <==> n < 0)
    ensures n < 0 ==> |r| >= 2 && IsDigit(r[1], 10)
  {
    if n < 0 then "-" + NatToDecimal(-n) else NatToDecimal(n)
  }

  /** Reading back the digits `toString` writes gives the number. */
  lemma {:induction false} ValueOfDecimal(n: nat)
    ensures ValueOf(NatToDecimal(n), 10) == n
  {
    if n >= 10 {
      var s := NatToDecimal(n);
      ValueOfDecimal(n / 10);
      assert s[..|s| - 1] == NatToDecimal(n / 10);
    }
  }

  /** The digits of a non-negative integer, followed by `rest`, as parseInt reads them after the sign. */
  lemma DecimalBody(n: nat, rest: string)
    requires rest == [] || !IsDigit(rest[0], 10)
    requires n != 0 || rest == [] || (rest[0] != 'x' && rest[0] != 'X')
    ensures var u := NatToDecimal(n) + rest;
      !HasHexPrefix(u) && DigitPrefixLength(u, 10) == |NatToDecimal(n)| && u[..|NatToDecimal(n)|] == NatToDecimal(n)
  {
    var d := NatToDecimal(n);
    var u := d + rest;
    NatToDecimalDigits(n);
    DigitPrefixOfDigits(d, rest, 10);
    assert u[..|d|] == d;
  }

  /** A run of digits followed by a non-digit is the longest digit prefix. */
  lemma {:induction false} DigitPrefixOfDigits(d: string, rest: string, radix: nat)
    requires forall i :: 0 <= i < |d| ==> IsDigit(d[i], radix)
    requires rest == [] || !IsDigit(rest[0], radix)
    ensures DigitPrefixLength(d + rest, radix) == |d|
  {
    if d != [] {
      assert (d + rest)[1..] == d[1..] + rest;
      DigitPrefixOfDigits(d[1..], rest, radix);
    } else {
      assert d + rest == rest;
    }
  }

  /** With no white space or sign in front, parseInt reads the magnitude directly. */
  lemma UnsignedUnfolds(s: string)
    requires s != [] && !IsJsWhitespace(s[0]) && s[0] != '-' && s[0] != '+'
    ensures ParseInt(s) == ParseMagnitude(s)
  {
    assert TrimStart(s) == s;
  }

  /** With a minus sign in front, parseInt negates the magnitude that follows. */
  lemma NegativeUnfolds(s: string, n: int)
    requires n <= 0 && s != [] && s[0] == '-' && ParseMagnitude(s[1..]) == Some(-n)
    ensures ParseInt(s) == Some(n)
  {
    assert TrimStart(s) == s;
  }

  /** With a plus sign in front, parseInt reads the magnitude that follows. */
  lemma PositiveUnfolds(s: string, n: nat)
    requires s != [] && s[0] == '+' && ParseMagnitude(s[1..]) == Some(n)
    ensures ParseInt(s) == Some(n)
  {
    assert TrimStart(s) == s;
  }

  /** With a sign in front, parseInt is NaN exactly when the magnitude that follows is. */
  lemma SignedUnfolds(s: string)
    requires s != [] && (s[0] == '-' || s[0] == '+')
    ensures ParseInt(s).None? <==> ParseMagnitude(s[1..]).None?
  {
    assert TrimStart(s) == s;
  }

  /** The digits `toString` writes for `n`, followed by `rest`, read as `n`. */
  lemma MagnitudeOfDecimal(n: nat, rest: string)
    requires rest == [] || !IsDigit(rest[0], 10)
    requires n != 0 || rest == [] || (rest[0] != 'x' && rest[0] != 'X')
    ensures ParseMagnitude(NatToDecimal(n) + rest) == Some(n)
  {
    DecimalBody(n, rest);
    ValueOfDecimal(n);
  }

  /** parseInt reads back what toString writes for a non-negative integer, followed by `rest`. */
  lemma ParseNonNegativeDecimal(n: nat, rest: string)
    requires rest == [] || !IsDigit(rest[0], 10)
    requires n != 0 || rest == [] || (rest[0] != 'x' && rest[0] != 'X')
    ensures ParseInt(NatToDecimal(n) + rest) == Some(n)
  {
    var s := NatToDecimal(n) + rest;
    assert s[0] == NatToDecimal(n)[0];
    MagnitudeOfDecimal(n, rest);
    UnsignedUnfolds(s);
  }

  /** A minus sign followed by the digits `toString` writes for `-n`, then `rest`, reads as `n`. */
  lemma ParseMinusDecimal(n: int, rest: string)
    requires n < 0
    requires rest == [] || !IsDigit(rest[0], 10)
    ensures ParseInt(['-'] + (NatToDecimal(-n) + rest)) == Some(n)
  {
    var s := ['-'] + (NatToDecimal(-n) + rest);
    assert s[1..] == NatToDecimal(-n) + rest;
    MagnitudeOfDecimal(-n, rest);
    NegativeUnfolds(s, n);
  }

  /** parseInt reads back what toString writes for a negative integer, followed by `rest`. */
  lemma ParseNegativeDecimal(n: int, rest: string)
    requires n < 0
    requires rest == [] || !IsDigit(rest[0], 10)
    ensures ParseInt(IntToDecimal(n) + rest) == Some(n)
  {
    ParseMinusDecimal(n, rest);
    assert IntToDecimal(n) + rest == ['-'] + (NatToDecimal(-n) + rest);
  }

  /**
   * parseInt inverts toString on integers (in JavaScript, on the safe
   * integers, whose toString is plain decimal), and it ignores what follows the
   * digits as long as that does not start with a digit (nor, after a lone
   * zero, with `x` or `X`).
   */
  lemma ParseDecimal(n: int, rest: string)
    requires rest == [] || !IsDigit(rest[0], 10)
    requires n != 0 || rest == [] || (rest[0] != 'x' && rest[0] != 'X')
    ensures ParseInt(IntToDecimal(n) + rest) == Some(n)
  {
    if n < 0 {
      ParseNegativeDecimal(n, rest);
    } else {
      ParseNonNegativeDecimal(n, rest);
    }
  }

  /** A run of decimal digits, not opening with a hexadecimal prefix, followed by a non-digit, is read in radix 10. */
  lemma DecimalRunMagnitude(d: string, rest: string)
    requires d != [] && forall i :: 0 <= i < |d| ==> IsDigit(d[i], 10)
    requires rest == [] || !IsDigit(rest[0], 10)
    requires !HasHexPrefix(d + rest)
    ensures ParseMagnitude(d + rest) == Some(ValueOf(d, 10))
  {
    DigitPrefixOfDigits(d, rest, 10);
    assert (d + rest)[..|d|] == d;
  }

  /**
   * Typed decimal text need not be canonical: parseInt reads any run of
   * decimal digits, leading zeros included, and ignores a tail that does not
   * start with a digit, so `007` is 7. Only a `0x` prefix reads otherwise.
   */
  lemma DecimalRunReads(d: string, rest: string)
    requires d != [] && forall i :: 0 <= i < |d| ==> IsDigit(d[i], 10)
    requires rest == [] || !IsDigit(rest[0], 10)
    requires !HasHexPrefix(d + rest)
    ensures ParseInt(d + rest) == Some(ValueOf(d, 10))
  {
    var u := d + rest;
    assert u[0] == d[0] && IsDigit(d[0], 10);
    assert !IsJsWhitespace(u[0]) && u[0] != '-' && u[0] != '+';
    DecimalRunMagnitude(d, rest);
    UnsignedUnfolds(u);
  }

  /** A plus sign may precede a decimal run: `+42` is 42. */
  lemma PlusDecimalRun(d: string, rest: string)
    requires d != [] && forall i :: 0 <= i < |d| ==> IsDigit(d[i], 10)
    requires rest == [] || !IsDigit(rest[0], 10)
    requires !HasHexPrefix(d + rest)
    ensures ParseInt(['+'] + (d + rest)) == Some(ValueOf(d, 10))
  {
    DecimalRunMagnitude(d, rest);
    assert (['+'] + (d + rest))[1..] == d + rest;
    PositiveUnfolds(['+'] + (d + rest), ValueOf(d, 10));
  }

  /** A minus sign may precede a decimal run: `-007` is -7. */
  lemma MinusDecimalRun(d: string, rest: string)
    requires d != [] && forall i :: 0 <= i < |d| ==> IsDigit(d[i], 10)
    requires rest == [] || !IsDigit(rest[0], 10)
    requires !HasHexPrefix(d + rest)
    ensures ParseInt(['-'] + (d + rest)).Some?
    ensures ParseInt(['-'] + (d + rest)).value == -(ValueOf(d, 10) as int)
  {
    var u, m := d + rest, ValueOf(d, 10);
    DecimalRunMagnitude(d, rest);
    MinusMagnitude(u, m);
  }

  /** Leading white space does not change what parseInt reads. */
  lemma ParseSkipsWhitespace(ws: string, s: string)
    requires forall i :: 0 <= i < |ws| ==> IsJsWhitespace(ws[i])
    ensures ParseInt(ws + s) == ParseInt(s)
  {
    TrimStartSkips(ws, s);
  }

  lemma {:induction false} TrimStartSkips(ws: string, s: string)
    requires forall i :: 0 <= i < |ws| ==> IsJsWhitespace(ws[i])
    ensures TrimStart(ws + s) == TrimStart(s)
  {
    if ws != [] {
      assert (ws + s)[1..] == ws[1..] + s;
      TrimStartSkips(ws[1..], s);
    } else {
      assert ws + s == s;
    }
  }

  /** Without any digit, parseInt gives NaN: the empty input is NaN. */
  lemma EmptyIsNaN()
    ensures ParseInt("") == None
  {
    assert TrimStart("") == "";
  }

  /** A sign that no decimal digit follows is NaN. */
  lemma SignWithoutDigitIsNaN(sign: char, rest: string)
    requires sign == '-' || sign == '+'
    requires rest == [] || !IsDigit(rest[0], 10)
    ensures ParseInt([sign] + rest) == None
  {
    var s := [sign] + rest;
    assert ParseMagnitude(rest) == None;
    assert s[1..] == rest;
    SignedUnfolds(s);
  }

  /** Input that starts with neither white space, a sign nor a decimal digit is NaN. */
  lemma NoLeadingDigitIsNaN(s: string)
    requires s != [] && !IsJsWhitespace(s[0]) && s[0] != '-' && s[0] != '+' && !IsDigit(s[0], 10)
    ensures ParseInt(s) == None
  {
    UnsignedUnfolds(s);
  }

  /** A `0x` prefix that no hexadecimal digit follows is NaN, not zero. */
  lemma BareHexPrefixIsNaN(x: char, rest: string)
    requires x == 'x' || x == 'X'
    requires rest == [] || !IsDigit(rest[0], 16)
    ensures ParseInt(['0', x] + rest) == None
  {
    var s := ['0', x] + rest;
    UnsignedUnfolds(s);
    assert s[2..] == rest;
  }

  /** After `0x` or `0X`, a run of hexadecimal digits followed by a non-digit is read in radix 16. */
  lemma HexMagnitude(x: char, d: string, rest: string)
    requires x == 'x' || x == 'X'
    requires d != [] && forall i :: 0 <= i < |d| ==> IsDigit(d[i], 16)
    requires rest == [] || !IsDigit(rest[0], 16)
    ensures ParseMagnitude(['0', x] + d + rest) == Some(ValueOf(d, 16))
  {
    var u := ['0', x] + d + rest;
    assert HasHexPrefix(u);
    SplitAfterPrefix(['0', x], d, rest);
    DigitPrefixOfDigits(d, rest, 16);
  }

  /** Dropping a two-character prefix leaves the digits and the tail; the digits are the first `|d|` of those. */
  lemma SplitAfterPrefix(p: string, d: string, rest: string)
    requires |p| == 2
    ensures (p + d + rest)[2..] == d + rest && (d + rest)[..|d|] == d
  {
    assert p + d + rest == p + (d + rest);
  }

  /**
   * Called without a radix, parseInt reads `0x` or `0X` followed by
   * hexadecimal digits in radix 16, and ignores a tail that does not start
   * with a hexadecimal digit: `0x1A` is 26.
   */
  lemma HexPrefixReadsRadix16(x: char, d: string, rest: string)
    requires x == 'x' || x == 'X'
    requires d != [] && forall i :: 0 <= i < |d| ==> IsDigit(d[i], 16)
    requires rest == [] || !IsDigit(rest[0], 16)
    ensures ParseInt(['0', x] + d + rest) == Some(ValueOf(d, 16))
  {
    var u := ['0', x] + d + rest;
    assert u[0] == '0';
    HexMagnitude(x, d, rest);
    UnsignedUnfolds(u);
  }

  /** A minus sign may precede the hexadecimal prefix: `-0x1A` is -26. */
  lemma MinusHexPrefix(x: char, d: string, rest: string)
    requires x == 'x' || x == 'X'
    requires d != [] && forall i :: 0 <= i < |d| ==> IsDigit(d[i], 16)
    requires rest == [] || !IsDigit(rest[0], 16)
    ensures ParseInt(['-'] + (['0', x] + d + rest)).Some?
    ensures ParseInt(['-'] + (['0', x] + d + rest)).value == -(ValueOf(d, 16) as int)
  {
    HexMagnitude(x, d, rest);
    MinusMagnitude(['0', x] + d + rest, ValueOf(d, 16));
  }

  /** A minus sign in front of a magnitude `m` reads as `-m`. */
  lemma MinusMagnitude(u: string, m: nat)
    requires ParseMagnitude(u) == Some(m)
    ensures ParseInt(['-'] + u) == Some(-(m as int))
  {
    assert (['-'] + u)[1..] == u;
    NegativeUnfolds(['-'] + u, -(m as int));
  }

  /** A plus sign may precede the hexadecimal prefix: `+0x1A` is 26. */
  lemma PlusHexPrefix(x: char, d: string, rest: string)
    requires x == 'x' || x == 'X'
    requires d != [] && forall i :: 0 <= i < |d| ==> IsDigit(d[i], 16)
    requires rest == [] || !IsDigit(rest[0], 16)
    ensures ParseInt(['+'] + (['0', x] + d + rest)) == Some(ValueOf(d, 16))
  {
    var u := ['0', x] + d + rest;
    HexMagnitude(x, d, rest);
    assert (['+'] + u)[1..] == u;
    PositiveUnfolds(['+'] + u, ValueOf(d, 16));
  }

  /** Minus zero reads as zero. */
  lemma MinusZeroIsZero()
    ensures ParseInt("-0") == Some(0)
  {
    assert "-0"[1..] == "0";
    DigitPrefixOfDigits("0", [], 10);
    assert "0" + [] == "0" && "0"[..1] == "0";
    NegativeUnfolds("-0", 0);
  }
}

=== FILE: optional.dfy ===
/** A value that may be absent: the model of TypeScript's `T | null`. */
module Optional {
  datatype Option<+T> = None | Some(value: T)
}

=== FILE: ring_dedup.dfy ===
/**
 * The occurrence key and the tick's firing rule of the ring engine
 * (src/hooks/useRingManager.ts), as functions: which signals one tick over
 * the monitored list fires, given the keys already in the dedup set.
 */
module RingDedup {
  import opened Signals

  /** `getSignalKey`: the occurrence key `timestamp-asset-direction`. */
  function SignalKey(s: Signal): string {
    s.timestamp + "-" + s.asset + "-" + s.direction
  }

  /**
   * The key's layout: the timestamp, a dash, the asset, a dash and the
   * direction, so it starts with the timestamp and ends with the direction.
   */
  lemma KeyLayout(s: Signal)
    ensures var k := SignalKey(s);
      && |k| == |s.timestamp| + |s.asset| + |s.direction| + 2
      && k[..|s.timestamp|] == s.timestamp && k[|s.timestamp|] == '-'
      && k[|s.timestamp| + 1..|k| - |s.direction| - 1] == s.asset
      && k[|k| - |s.direction| - 1] == '-' && k[|k| - |s.direction|..] == s.direction
  {
    var k := SignalKey(s);
    assert k == s.timestamp + ("-" + s.asset + "-" + s.direction);
    assert k == s.timestamp + "-" + s.asset + ("-" + s.direction);
  }

  predicate NoDash(text: string) {
    '-' !in text
  }

  /** Splitting at the first separator is unique when the heads hold no separator. */
  lemma {:induction false} SplitAtDash(x: string, r: string, y: string, t: string)
    requires NoDash(x) && NoDash(y)
    requires x + "-" + r == y + "-" + t
    ensures x == y && r == t
  {
    var u := x + "-" + r;
    assert u[|x|] == '-';
    assert u[|y|] == '-';
    assert |x| == |y|;
    assert x == u[..|x|] == y;
    assert r == u[|x| + 1..] == t;
  }

  /** Splitting at the last separator is unique when the tails hold no separator. */
  lemma {:induction false} SplitAtLastDash(x: string, r: string, y: string, t: string)
    requires NoDash(r) && NoDash(t)
    requires x + "-" + r == y + "-" + t
    ensures x == y && r == t
  {
    var u := x + "-" + r;
    assert u[|x|] == '-';
    assert u[|y|] == '-';
    assert x == u[..|x|] == y;
    assert r == u[|x| + 1..] == t;
  }

  /** The same timestamp, asset and direction always give the same key. */
  lemma SameOccurrenceSameKey(a: Signal, b: Signal)
    requires a.timestamp == b.timestamp && a.asset == b.asset && a.direction == b.direction
    ensures SignalKey(a) == SignalKey(b)
  {
  }

  /**
   * When neither timestamp nor direction contains a dash, equal keys mean the
   * same occurrence, whatever dashes the asset holds (such as `EURUSD-OTC`).
   */
  lemma {:induction false} KeyIdentifiesOccurrence(a: Signal, b: Signal)
    requires NoDash(a.timestamp) && NoDash(b.timestamp) && NoDash(a.direction) && NoDash(b.direction)
    ensures SignalKey(a) == SignalKey(b) <==> a == b
  {
    if SignalKey(a) == SignalKey(b) {
      SplitAtLastDash(a.timestamp + "-" + a.asset, a.direction, b.timestamp + "-" + b.asset, b.direction);
      SplitAtDash(a.timestamp, a.asset, b.timestamp, b.asset);
    }
  }

  /** The key is not injective in general: a dash inside a field moves the boundaries. */
  lemma KeyCollides()
    ensures exists a: Signal, b: Signal :: a != b && SignalKey(a) == SignalKey(b)
  {
    var a := Signal("0930", "EUR-USD", "up");
    var b := Signal("0930-EUR", "USD", "up");
    assert SignalKey(a) == "0930-EUR-USD-up" == SignalKey(b);
    assert a.asset != b.asset;
  }

  /** `checkSignalTime(signal, antidelaySeconds)` read at clock `now`; its policy is not modelled. */
  type SignalTimeCheck = (int, Signal, int) -> bool

  function KeysOf(fs: seq<Signal>): set<string> {
    set f | f in fs :: SignalKey(f)
  }

  lemma KeysOfAppend(fs: seq<Signal>, s: Signal)
    ensures KeysOf(fs + [s]) == KeysOf(fs) + {SignalKey(s)}
  {
    assert forall f :: f in fs + [s] <==> f in fs || f == s;
  }

  /**
   * The signals one tick fires, in list order: a signal fires when it is due
   * and its key is neither in the dedup set `seen` nor already fired earlier
   * in the same tick.
   */
  function Fired(signals: seq<Signal>, check: SignalTimeCheck, now: int, offset: int, seen: set<string>): (r: seq<Signal>)
    ensures forall f :: f in r ==> f in signals
    decreases |signals|
  {
    if signals == [] then []
    else
      var init := Fired(signals[..|signals| - 1], check, now, offset, seen);
      var s := signals[|signals| - 1];
      if check(now, s, offset) && SignalKey(s) !in seen + KeysOf(init) then init + [s] else init
  }

  /** Extending the list by one signal extends what the tick fires by at most that signal. */
  lemma FiredStep(signals: seq<Signal>, i: nat, check: SignalTimeCheck, now: int, offset: int, seen: set<string>)
    requires i < |signals|
    ensures var prev := Fired(signals[..i], check, now, offset, seen);
      Fired(signals[..i + 1], check, now, offset, seen)
        == if check(now, signals[i], offset) && SignalKey(signals[i]) !in seen + KeysOf(prev) then prev + [signals[i]] else prev
  {
    assert signals[..i + 1][..i] == signals[..i];
  }

  /** Everything a tick fires is a due signal of the list whose key was not in the dedup set. */
  lemma {:induction false} FiredAreDueAndFresh(signals: seq<Signal>, check: SignalTimeCheck, now: int, offset: int, seen: set<string>)
    ensures forall f :: f in Fired(signals, check, now, offset, seen) ==>
      f in signals && check(now, f, offset) && SignalKey(f) !in seen
  {
    if signals != [] {
      var init := signals[..|signals| - 1];
      FiredAreDueAndFresh(init, check, now, offset, seen);
      assert forall f :: f in init ==> f in signals;
    }
  }

  /** No two signals in `fs` share a key. */
  predicate DistinctKeys(fs: seq<Signal>) {
    forall i, j :: 0 <= i < j < |fs| ==> SignalKey(fs[i]) != SignalKey(fs[j])
  }

  /** No two signals a tick fires share a key: a key listed twice fires once. */
  lemma {:induction false} FiredKeysDistinct(signals: seq<Signal>, check: SignalTimeCheck, now: int, offset: int, seen: set<string>)
    ensures DistinctKeys(Fired(signals, check, now, offset, seen))
  {
    if signals != [] {
      var init := signals[..|signals| - 1];
      var last := signals[|signals| - 1];
      var prev := Fired(init, check, now, offset, seen);
      FiredKeysDistinct(init, check, now, offset, seen);
      var fs := Fired(signals, check, now, offset, seen);
      if fs != prev {
        assert fs == prev + [last];
        assert SignalKey(last) !in KeysOf(prev);
        forall i | 0 <= i < |prev|
          ensures SignalKey(prev[i]) != SignalKey(last)
        {
          assert prev[i] in prev;
        }
      }
    }
  }

  /** Every due signal of the list ends the tick with its key in the dedup set. */
  lemma {:induction false} DueKeysMarked(signals: seq<Signal>, check: SignalTimeCheck, now: int, offset: int, seen: set<string>)
    ensures forall s :: s in signals && check(now, s, offset) ==>
      SignalKey(s) in seen + KeysOf(Fired(signals, check, now, offset, seen))
  {
    if signals != [] {
      var init := signals[..|signals| - 1];
      var last := signals[|signals| - 1];
      DueKeysMarked(init, check, now, offset, seen);
      var prev := Fired(init, check, now, offset, seen);
      var fs := Fired(signals, check, now, offset, seen);
      assert signals == init + [last];
      if fs != prev {
        KeysOfAppend(prev, last);
      }
      assert KeysOf(prev) <= KeysOf(fs);
    }
  }

  /** Exactly one signal of `fs` has key `k`. */
  predicate FiredOnceUnder(fs: seq<Signal>, k: string) {
    exists i :: 0 <= i < |fs| && SignalKey(fs[i]) == k
      && forall j :: 0 <= j < |fs| && j != i ==> SignalKey(fs[j]) != k
  }

  /**
   * Exactly one fire per fresh key: a due signal whose key is not in the dedup
   * set is fired once under that key, not more.
   */
  lemma FiresOncePerFreshKey(signals: seq<Signal>, check: SignalTimeCheck, now: int, offset: int, seen: set<string>, s: Signal)
    requires s in signals && check(now, s, offset) && SignalKey(s) !in seen
    ensures FiredOnceUnder(Fired(signals, check, now, offset, seen), SignalKey(s))
  {
    var fs := Fired(signals, check, now, offset, seen);
    DueKeysMarked(signals, check, now, offset, seen);
    FiredKeysDistinct(signals, check, now, offset, seen);
    assert SignalKey(s) in KeysOf(fs);
    var f :| f in fs && SignalKey(f) == SignalKey(s);
    var i :| 0 <= i < |fs| && fs[i] == f;
    forall j | 0 <= j < |fs| && j != i
      ensures SignalKey(fs[j]) != SignalKey(s)
    {
      if j < i {
        assert SignalKey(fs[j]) != SignalKey(fs[i]);
      } else {
        assert SignalKey(fs[i]) != SignalKey(fs[j]);
      }
    }
    assert SignalKey(fs[i]) == SignalKey(s);
  }

  /** One tick of the monitoring interval: the list, the clock and the offset it read. */
  datatype TickAt = TickAt(signals: seq<Signal>, now: int, offset: int)

  /** What a run of ticks fires when no dedup entry expires in between. */
  function FiredOverTicks(ticks: seq<TickAt>, check: SignalTimeCheck, seen: set<string>): seq<Signal>
    decreases |ticks|
  {
    if ticks == [] then []
    else
      var first := Fired(ticks[0].signals, check, ticks[0].now, ticks[0].offset, seen);
      first + FiredOverTicks(ticks[1..], check, seen + KeysOf(first))
  }

  /**
   * Until an expiry removes it, a key fires at most once however many ticks
   * find its signal due: the keys fired over a run of ticks are pairwise
   * distinct and none was in the dedup set at the start.
   */
  lemma {:induction false} AtMostOncePerKeyAcrossTicks(ticks: seq<TickAt>, check: SignalTimeCheck, seen: set<string>)
    ensures forall f :: f in FiredOverTicks(ticks, check, seen) ==> SignalKey(f) !in seen
    ensures DistinctKeys(FiredOverTicks(ticks, check, seen))
  {
    if ticks != [] {
      var t := ticks[0];
      var first := Fired(t.signals, check, t.now, t.offset, seen);
      var seen' := seen + KeysOf(first);
      var rest := FiredOverTicks(ticks[1..], check, seen');
      FiredAreDueAndFresh(t.signals, check, t.now, t.offset, seen);
      FiredKeysDistinct(t.signals, check, t.now, t.offset, seen);
      AtMostOncePerKeyAcrossTicks(ticks[1..], check, seen');
      var fs := first + rest;
      assert fs == FiredOverTicks(ticks, check, seen);
      forall i, j | 0 <= i < j < |fs|
        ensures SignalKey(fs[i]) != SignalKey(fs[j])
      {
        if j < |first| {
          assert fs[i] == first[i] && fs[j] == first[j];
        } else if i < |first| {
          assert fs[i] == first[i] && first[i] in first;
          assert SignalKey(fs[i]) in KeysOf(first);
          assert fs[j] == rest[j - |first|] && fs[j] in rest;
        } else {
          assert fs[i] == rest[i - |first|] && fs[j] == rest[j - |first|];
        }
      }
    }
  }

  /** A tick in which every due signal's key is already in the dedup set fires nothing. */
  lemma SuppressedTickFiresNothing(signals: seq<Signal>, check: SignalTimeCheck, now: int, offset: int, seen: set<string>)
    requires forall s :: s in signals && check(now, s, offset) ==> SignalKey(s) in seen
    ensures Fired(signals, check, now, offset, seen) == []
  {
    var fs := Fired(signals, check, now, offset, seen);
    FiredAreDueAndFresh(signals, check, now, offset, seen);
  }
}

=== FILE: ring_manager.dfy ===
/**
 * The ring manager (src/hooks/useRingManager.ts): the state behind the
 * hook's refs and state setters, and its operations as methods. The clock,
 * the timers and the platform calls are explicit: `now` is a logical clock
 * in milliseconds, each dedup timer is stored as the instant it is due,
 * `checkSignalTime`, the wake-lock request and the outcome of `play()` are
 * parameters, and calls out of the hook are recorded in logs.
 */
module RingManager {
  import opened Optional
  import opened Signals
  import opened Audio
  import opened RingDedup
  import AudioUtils
  import opened TickEffects

  /** A paused element rewound to position 0. */
  predicate Stopped(a: AudioElement)
    reads a
  {
    a.paused && a.currentTime == 0
  }

  /** The element still has its source and loop flag. */
  twostate predicate SourceKept(a: AudioElement)
    reads a
  {
    a.src == old(a.src) && a.loop == old(a.loop)
  }

  /**
   * Close was requested on `c` once per time it occurs in `cs` if it was
   * open, and not at all if it was closed.
   */
  twostate predicate ClosedIfOpen(c: AudioContext, cs: seq<AudioContext>)
    reads c
  {
    c.closed == old(c.closed) && c.closeCalls == old(c.closeCalls) + (if old(c.closed) then 0 else multiset(cs)[c])
  }

  /** The `forEach` of ring-off over audio elements: each is paused and rewound to 0. */
  method StopElements(elements: seq<AudioElement>)
    modifies elements
    ensures forall a :: a in elements ==> Stopped(a) && SourceKept(a)
  {
    var i := 0;
    while i < |elements|
      invariant 0 <= i <= |elements|
      invariant forall j :: 0 <= j < i ==> Stopped(elements[j])
      invariant forall a :: a in elements ==> SourceKept(a)
    {
      elements[i].Pause();
      elements[i].currentTime := 0;
      i := i + 1;
    }
  }

  /**
   * The `forEach` of ring-off over the tracked contexts: close is requested
   * on each context whose state is not closed, and on no other.
   */
  method CloseOpenContexts(cs: seq<AudioContext>)
    modifies cs
    ensures forall c :: c in cs ==> ClosedIfOpen(c, cs)
  {
    var i := 0;
    while i < |cs|
      invariant 0 <= i <= |cs|
      invariant forall c :: c in cs ==> ClosedIfOpen(c, cs[..i])
    {
      assert cs[..i + 1] == cs[..i] + [cs[i]];
      if !cs[i].closed {
        cs[i].Close();
      }
      i := i + 1;
    }
    assert cs[..i] == cs;
  }

  /**
   * The audio part of ring-off: the tracked elements are stopped, close is
   * requested on the open tracked contexts and the registry emptied, then
   * the elements found on the page are stopped too.
   */
  method StopAllAudio(tracked: seq<AudioElement>, registry: ContextRegistry, page: seq<AudioElement>)
    modifies tracked, registry, registry.current, page
    ensures registry.current == []
    ensures forall a :: a in tracked || a in page ==> Stopped(a) && SourceKept(a)
    ensures forall c :: c in old(registry.current) ==> ClosedIfOpen(c, old(registry.current))
  {
    StopElements(tracked);
    CloseOpenContexts(registry.current);
    registry.current := [];
    assert forall a :: a in page && a !in tracked ==> unchanged(a);
    label beforeSweep:
    StopElements(page);
    forall a | a in tracked || a in page
      ensures Stopped(a) && SourceKept(a)
    {
      if a !in page {
        assert unchanged@beforeSweep(a);
      } else {
        assert SourceKept@beforeSweep(a);
      }
    }
  }

  class RingManager {
    // The hook's arguments.
    var signals: seq<Signal>
    var antidelay: int
    var ringtone: Option<string>
    /** Whether the one-second monitoring interval is set. */
    var intervalActive: bool

    // The hook's state.
    var isRinging: bool
    var current: Option<Signal>
    var wakeLock: Option<WakeLock>
    var ringOffPressed: bool

    // The hook's refs.
    var instances: seq<AudioElement>
    const contexts: ContextRegistry
    var recent: set<string>
    /** The pending dedup timers: key to the instant the timer is due. */
    var timers: map<string, int>

    /** The logical clock, in milliseconds. */
    var now: int

    /** The calls of `onSignalTriggered`, in order. */
    var triggered: seq<Signal>
    /** The calls of `releaseWakeLock`, with their argument. */
    var releasedLocks: seq<Option<WakeLock>>

    ghost predicate Valid()
      reads this
    {
      && (intervalActive ==> |signals| > 0)
      && recent == timers.Keys
      && (forall k :: k in timers ==> timers[k] <= now + TriggerWindowMs)
      && (isRinging <==> current.Some?)
      && (!isRinging ==> wakeLock == None)
    }

    twostate predicate PropsUnchanged()
      reads this
    {
      && signals == old(signals) && antidelay == old(antidelay) && ringtone == old(ringtone)
      && intervalActive == old(intervalActive) && now == old(now)
    }

    twostate predicate RingUnchanged()
      reads this
    {
      && isRinging == old(isRinging) && current == old(current) && wakeLock == old(wakeLock)
      && releasedLocks == old(releasedLocks)
    }

    twostate predicate DedupUnchanged()
      reads this
    {
      recent == old(recent) && timers == old(timers)
    }

    /** `n` fresh, playing, looping elements of the current ringtone were appended to `instances`. */
    twostate predicate AppendedInstances(n: nat)
      reads this, instances
    {
      && Extends(old(instances), instances, n)
      && forall j :: |old(instances)| <= j < |instances| ==>
           fresh(instances[j]) && instances[j].loop && !instances[j].paused && Some(instances[j].src) == ringtone
    }

    /** Every tracked element from index `base` on plays the current ringtone in a loop. */
    predicate RingingFrom(base: nat)
      reads this, instances
    {
      forall j :: base <= j < |instances| ==>
        instances[j].loop && !instances[j].paused && Some(instances[j].src) == ringtone
    }

    /** Every registered context from index `base` on is open and has had no close request. */
    predicate OpenFrom(base: nat)
      reads this, contexts, contexts.current
    {
      forall j :: base <= j < |contexts.current| ==> !contexts.current[j].closed && contexts.current[j].closeCalls == 0
    }

    /** `n` fresh, open contexts were appended to the context registry. */
    twostate predicate AppendedContexts(n: nat)
      reads this, contexts, contexts.current
    {
      && Extends(old(contexts.current), contexts.current, n)
      && forall j :: |old(contexts.current)| <= j < |contexts.current| ==>
           fresh(contexts.current[j]) && !contexts.current[j].closed && contexts.current[j].closeCalls == 0
    }

    /** Mounting the hook: idle, empty refs, and monitoring set up when there are signals. */
    constructor (signals: seq<Signal>, antidelay: int, ringtone: Option<string>, now: int)
      ensures Valid() && fresh(contexts)
      ensures this.signals == signals && this.antidelay == antidelay && this.ringtone == ringtone
      ensures intervalActive == (|signals| > 0) && this.now == now
      ensures !isRinging && current == None && wakeLock == None && !ringOffPressed
      ensures instances == [] && contexts.current == [] && recent == {} && timers == map[]
      ensures triggered == [] && releasedLocks == []
    {
      this.signals := signals;
      this.antidelay := antidelay;
      this.ringtone := ringtone;
      intervalActive := |signals| > 0;
      isRinging := false;
      current := None;
      wakeLock := None;
      ringOffPressed := false;
      instances := [];
      contexts := new ContextRegistry();
      recent := {};
      timers := map[];
      this.now := now;
      triggered := [];
      releasedLocks := [];
    }

    /**
     * A re-render with new arguments: the monitoring effect clears its
     * interval and sets a new one only when the signal list is non-empty.
     */
    method UpdateProps(signals: seq<Signal>, antidelay: int, ringtone: Option<string>)
      requires Valid()
      modifies this
      ensures Valid()
      ensures this.signals == signals && this.antidelay == antidelay && this.ringtone == ringtone
      ensures intervalActive == (|signals| > 0) && now == old(now)
      ensures RingUnchanged() && DedupUnchanged() && ringOffPressed == old(ringOffPressed)
      ensures instances == old(instances) && triggered == old(triggered)
    {
      this.signals := signals;
      this.antidelay := antidelay;
      this.ringtone := ringtone;
      intervalActive := |signals| > 0;
    }

    /** Time passes; no timer callback runs. */
    method AdvanceClock(ms: nat)
      requires Valid()
      modifies this
      ensures Valid()
      ensures now == old(now) + ms
      ensures signals == old(signals) && antidelay == old(antidelay) && ringtone == old(ringtone)
      ensures intervalActive == old(intervalActive)
      ensures RingUnchanged() && DedupUnchanged() && ringOffPressed == old(ringOffPressed)
      ensures instances == old(instances) && triggered == old(triggered)
    {
      now := now + ms;
    }

    /**
     * `triggerRing`. A key already in the dedup set changes nothing and does
     * not call back. A fresh key is marked, its 5-minute timer recorded under
     * the same key, the ring state set to this signal, the wake lock kept,
     * the playback's element (if any) tracked, and the callback called once.
     */
    method TriggerRing(s: Signal, lock: Option<WakeLock>, playSucceeds: bool) returns (fired: bool)
      requires Valid()
      modifies this, contexts
      ensures Valid()
      ensures fired == (SignalKey(s) !in old(recent))
      ensures PropsUnchanged() && ringOffPressed == old(ringOffPressed)
      ensures !fired ==> DedupUnchanged() && RingUnchanged() && triggered == old(triggered)
      ensures !fired ==> instances == old(instances) && contexts.current == old(contexts.current)
      ensures fired ==> recent == old(recent) + {SignalKey(s)}
      ensures fired ==> timers == old(timers)[SignalKey(s) := now + TriggerWindowMs]
      ensures fired ==> isRinging && current == Some(s) && wakeLock == lock && releasedLocks == old(releasedLocks)
      ensures fired ==> triggered == old(triggered) + [s]
      ensures fired ==> var loops := AudioUtils.IsTruthy(ringtone) && playSucceeds;
        AppendedInstances(if loops then 1 else 0) && AppendedContexts(if loops then 0 else 1)
    {
      if SignalKey(s) in recent {
        return false;
      }
      Ring(s, lock, playSucceeds);
      fired := true;
    }

    /**
     * The body of `triggerRing` for a fresh key: the key is marked, its
     * timer recorded, the ring state set, the sound played and the callback
     * called.
     */
    method Ring(s: Signal, lock: Option<WakeLock>, playSucceeds: bool)
      requires Valid() && SignalKey(s) !in recent
      modifies this, contexts
      ensures Valid()
      ensures PropsUnchanged() && ringOffPressed == old(ringOffPressed)
      ensures recent == old(recent) + {SignalKey(s)}
      ensures timers == old(timers)[SignalKey(s) := now + TriggerWindowMs]
      ensures isRinging && current == Some(s) && wakeLock == lock && releasedLocks == old(releasedLocks)
      ensures triggered == old(triggered) + [s]
      ensures var loops := AudioUtils.IsTruthy(ringtone) && playSucceeds;
        AppendedInstances(if loops then 1 else 0) && AppendedContexts(if loops then 0 else 1)
    {
      MarkRinging(s, lock);
      PlayAndTrack(playSucceeds);
      triggered := triggered + [s];
    }

    /** The bookkeeping of `triggerRing` before playback: the key is marked and timed, and the ring state set. */
    method MarkRinging(s: Signal, lock: Option<WakeLock>)
      modifies this`recent, this`timers, this`isRinging, this`current, this`wakeLock
      ensures recent == old(recent) + {SignalKey(s)}
      ensures timers == old(timers)[SignalKey(s) := now + TriggerWindowMs]
      ensures isRinging && current == Some(s) && wakeLock == lock
    {
      var key := SignalKey(s);
      recent := recent + {key};
      timers := timers[key := now + TriggerWindowMs];
      isRinging := true;
      current := Some(s);
      wakeLock := lock;
    }

    /**
     * The playback step of `triggerRing`: the ringtone (or beep) is played
     * with contexts registered in `contexts`, and a returned element is
     * appended to `instances`.
     */
    method PlayAndTrack(playSucceeds: bool)
      modifies this`instances, contexts
      ensures var loops := AudioUtils.IsTruthy(ringtone) && playSucceeds;
        AppendedInstances(if loops then 1 else 0) && AppendedContexts(if loops then 0 else 1)
    {
      var audio := AudioUtils.PlayCustomRingtone(ringtone, playSucceeds, contexts);
      if audio != null {
        instances := instances + [audio];
      }
    }

    /** The state a tick changes, as a value. */
    ghost function Observe(): TickState
      reads this, contexts
    {
      TickState(now, triggered, recent, timers, isRinging, current, wakeLock, releasedLocks, instances, contexts.current)
    }

    /**
     * The interval callback: each signal, in list order, that
     * `checkSignalTime` finds due is passed to `TriggerRing`. What it fires
     * is exactly `Fired` of the list from the dedup set it started with.
     */
    method Tick(check: SignalTimeCheck, lockFor: Signal -> Option<WakeLock>, playSucceeds: Signal -> bool)
      requires Valid() && intervalActive
      modifies this, contexts
      ensures Valid()
      ensures PropsUnchanged() && ringOffPressed == old(ringOffPressed)
      ensures var fs := Fired(old(signals), check, old(now), old(antidelay), old(recent));
        FiredBetween(old(Observe()), Observe(), fs, lockFor,
                     LoopCount(fs, ringtone, playSucceeds), BeepCount(fs, ringtone, playSucceeds))
      ensures RingingFrom(|old(instances)|) && OpenFrom(|old(contexts.current)|)
    {
      var list, i := signals, 0;
      ghost var fs: seq<Signal> := [];
      ghost var t, offset := now, antidelay;
      StampedNothing(timers, now + TriggerWindowMs);
      while i < |list|
        invariant 0 <= i <= |list|
        invariant Valid() && PropsUnchanged() && ringOffPressed == old(ringOffPressed)
        invariant now == t && antidelay == offset
        invariant fs == Fired(list[..i], check, t, offset, old(recent))
        invariant FiredBetween(old(Observe()), Observe(), fs, lockFor,
                               LoopCount(fs, ringtone, playSucceeds), BeepCount(fs, ringtone, playSucceeds))
        invariant RingingFrom(|old(instances)|) && OpenFrom(|old(contexts.current)|)
      {
        ghost var before := Observe();
        var fired := CheckAndTrigger(list[i], check, lockFor, playSucceeds, |old(instances)|, |old(contexts.current)|);
        TickStep(list, i, check, t, offset, fs, old(Observe()), before, Observe(), fired, lockFor, ringtone, playSucceeds);
        if fired {
          fs := fs + [list[i]];
        }
        i := i + 1;
      }
      assert list[..i] == list;
    }

    /**
     * The interval callback's body for one signal: when `checkSignalTime`
     * finds it due, it is passed to `TriggerRing` with the wake lock
     * requested for it.
     */
    method CheckAndTrigger(s: Signal, check: SignalTimeCheck, lockFor: Signal -> Option<WakeLock>, playSucceeds: Signal -> bool,
                           ghost base: nat, ghost contextBase: nat)
      returns (fired: bool)
      requires Valid() && RingingFrom(base) && OpenFrom(contextBase)
      modifies this, contexts
      ensures Valid() && RingingFrom(base) && OpenFrom(contextBase)
      ensures PropsUnchanged() && ringOffPressed == old(ringOffPressed)
      ensures fired == (check(now, s, antidelay) && SignalKey(s) !in old(recent))
      ensures timers == if fired then old(timers)[SignalKey(s) := now + TriggerWindowMs] else old(timers)
      ensures var loop := if fired && PlaysLoop(ringtone, playSucceeds, s) then 1 else 0;
        AppendedInstances(loop) && AppendedContexts((if fired then 1 else 0) - loop)
      ensures var loop := if fired && PlaysLoop(ringtone, playSucceeds, s) then 1 else 0;
        FiredBetween(old(Observe()), Observe(), if fired then [s] else [], lockFor,
                     loop, (if fired then 1 else 0) - loop)
    {
      fired := false;
      if check(now, s, antidelay) {
        fired := TriggerRing(s, lockFor(s), playSucceeds(s));
      }
      if fired {
        assert KeysOf([s]) == {SignalKey(s)};
        StampedOne(old(timers), SignalKey(s), now + TriggerWindowMs);
      } else {
        assert KeysOf([]) == {};
        StampedNothing(timers, now + TriggerWindowMs);
      }
    }

    /** The 5-minute timeout of `key` fires (never before it is due): the key leaves the set and the map. */
    method Expire(key: string)
      requires Valid() && key in timers && timers[key] <= now
      modifies this
      ensures Valid()
      ensures recent == old(recent) - {key} && timers == old(timers) - {key}
      ensures PropsUnchanged() && RingUnchanged() && ringOffPressed == old(ringOffPressed)
      ensures instances == old(instances) && triggered == old(triggered)
    {
      recent := recent - {key};
      timers := timers - {key};
    }

    /**
     * `handleRingOff`, with `page` the audio elements found on the page.
     * Every tracked and every page element is paused and rewound; close is
     * requested once on each tracked context that is not already closed and
     * on no other; both lists end empty. The ring state is cleared, and the
     * wake lock released, only when ringing; the dedup state is not touched.
     */
    method HandleRingOff(page: seq<AudioElement>)
      requires Valid()
      modifies this, contexts, instances, contexts.current, page
      ensures Valid()
      ensures ringOffPressed
      ensures instances == [] && contexts.current == []
      ensures forall a :: a in old(instances) || a in page ==> Stopped(a) && SourceKept(a)
      ensures forall c :: c in old(contexts.current) ==> ClosedIfOpen(c, old(contexts.current))
      ensures !isRinging && current == None && wakeLock == None
      ensures old(isRinging) ==> releasedLocks == old(releasedLocks) + [old(wakeLock)]
      ensures !old(isRinging) ==> RingUnchanged()
      ensures PropsUnchanged() && DedupUnchanged() && triggered == old(triggered)
    {
      ringOffPressed := true;
      StopAllAudio(instances, contexts, page);
      instances := [];
      if isRinging {
        isRinging := false;
        current := None;
        releasedLocks := releasedLocks + [wakeLock];
        wakeLock := None;
      }
    }

    /**
     * Two fires on distinct fresh keys, then ring-off. The second fire's
     * `setWakeLock` overwrites the first handle, and ring-off releases only
     * the current one, so the first lock is never released and nothing
     * refers to it any more.
     */
    method OverlappingFiresLeakFirstLock(a: Signal, b: Signal, la: WakeLock, lb: WakeLock, playA: bool, playB: bool)
      requires Valid() && SignalKey(a) !in recent && SignalKey(b) !in recent && SignalKey(a) != SignalKey(b)
      requires la != lb
      modifies this, contexts, instances, contexts.current
      ensures Valid() && !isRinging && wakeLock == None
      ensures triggered == old(triggered) + [a, b]
      ensures releasedLocks == old(releasedLocks) + [Some(lb)]
      ensures Some(la) !in releasedLocks[|old(releasedLocks)|..]
    {
      var firedA := TriggerRing(a, Some(la), playA);
      var firedB := TriggerRing(b, Some(lb), playB);
      HandleRingOff([]);
    }

    /** The 200 ms pulse of the ring-off acknowledgement ends. */
    method RingOffPulseEnds()
      requires Valid()
      modifies this
      ensures Valid() && !ringOffPressed
      ensures PropsUnchanged() && RingUnchanged() && DedupUnchanged()
      ensures instances == old(instances) && triggered == old(triggered)
    {
      ringOffPressed := false;
    }

    /** Unmounting: the interval is cleared, every dedup timer cancelled and the set and map emptied. */
    method Unmount()
      requires Valid()
      modifies this
      ensures Valid()
      ensures !intervalActive && recent == {} && timers == map[]
      ensures signals == old(signals) && antidelay == old(antidelay) && ringtone == old(ringtone) && now == old(now)
      ensures RingUnchanged() && ringOffPressed == old(ringOffPressed)
      ensures instances == old(instances) && triggered == old(triggered)
    {
      intervalActive := false;
      timers := map[];
      recent := {};
    }
  }
}

=== FILE: signals.dfy ===
/**
 * The monitored signal: one scheduled alert occurrence. Only the three
 * fields the ring engine reads are kept, each as the text it renders to
 * inside a template literal.
 */
module Signals {
  datatype Signal = Signal(timestamp: string, asset: string, direction: string)
}

=== FILE: tick_effects.dfy ===
/**
 * What firing signals does to the ring manager's state, as values: the
 * counts of looping elements and beep contexts a run of fires leaves
 * behind, and the relation between the state before and after a run of
 * fires, with its composition lemmas.
 */
module TickEffects {
  import opened Optional
  import opened Signals
  import opened Audio
  import opened RingDedup
  import AudioUtils

  /** How long a fired key stays in the dedup set: 5 minutes. */
  const TriggerWindowMs: int := 5 * 60 * 1000

  /** A `WakeLockSentinel`, as returned by the (unmodelled) wake-lock request. */
  datatype WakeLock = WakeLock(id: nat)

  /** Whether firing `s` plays the custom ringtone in a loop rather than the beep. */
  predicate PlaysLoop(ringtone: Option<string>, playSucceeds: Signal -> bool, s: Signal) {
    AudioUtils.IsTruthy(ringtone) && playSucceeds(s)
  }

  /** How many of the fires `fs` end with a looping element. */
  function LoopCount(fs: seq<Signal>, ringtone: Option<string>, playSucceeds: Signal -> bool): (n: nat)
    ensures n <= |fs|
    ensures !AudioUtils.IsTruthy(ringtone) ==> n == 0
    decreases |fs|
  {
    if fs == [] then 0
    else LoopCount(fs[..|fs| - 1], ringtone, playSucceeds) + (if PlaysLoop(ringtone, playSucceeds, fs[|fs| - 1]) then 1 else 0)
  }

  /** How many of the fires `fs` end with the beep (no ringtone, or its playback failed). */
  function BeepCount(fs: seq<Signal>, ringtone: Option<string>, playSucceeds: Signal -> bool): (n: nat)
    ensures n + LoopCount(fs, ringtone, playSucceeds) == |fs|
    ensures !AudioUtils.IsTruthy(ringtone) ==> n == |fs|
    decreases |fs|
  {
    if fs == [] then 0
    else BeepCount(fs[..|fs| - 1], ringtone, playSucceeds) + (if PlaysLoop(ringtone, playSucceeds, fs[|fs| - 1]) then 0 else 1)
  }

  /** `b` is `a` with `n` elements appended. */
  predicate Extends<T(==)>(a: seq<T>, b: seq<T>, n: nat) {
    |b| == |a| + n && b[..|a|] == a
  }

  lemma ExtendsTrans<T>(a: seq<T>, b: seq<T>, c: seq<T>, n: nat, m: nat)
    requires Extends(a, b, n) && Extends(b, c, m)
    ensures Extends(a, c, n + m)
  {
    assert c[..|a|] == c[..|b|][..|a|];
  }

  lemma LoopCountAppend(fs: seq<Signal>, s: Signal, ringtone: Option<string>, playSucceeds: Signal -> bool)
    ensures LoopCount(fs + [s], ringtone, playSucceeds)
      == LoopCount(fs, ringtone, playSucceeds) + (if PlaysLoop(ringtone, playSucceeds, s) then 1 else 0)
    ensures BeepCount(fs + [s], ringtone, playSucceeds)
      == BeepCount(fs, ringtone, playSucceeds) + (if PlaysLoop(ringtone, playSucceeds, s) then 0 else 1)
  {
    assert (fs + [s])[..|fs|] == fs;
  }

  /** The part of the manager's state that firing signals changes, as values. */
  datatype TickState = TickState(
    now: int, triggered: seq<Signal>, recent: set<string>, timers: map<string, int>,
    isRinging: bool, current: Option<Signal>, wakeLock: Option<WakeLock>,
    releasedLocks: seq<Option<WakeLock>>, instances: seq<AudioElement>, registered: seq<AudioContext>)

  /**
   * From `before` to `after` exactly the signals `fs` were dispatched, in
   * order, with the clock standing still: each was called back, marked,
   * and given the dedup deadline 5 minutes from now; the ring state is that of the last one (or untouched when there
   * is none), and no wake lock was released.
   */
  predicate DispatchedBetween(before: TickState, after: TickState, fs: seq<Signal>,
                              lockFor: Signal -> Option<WakeLock>)
  {
    && after.now == before.now
    && after.triggered == before.triggered + fs
    && after.recent == before.recent + KeysOf(fs)
    && after.timers == Stamped(before.timers, KeysOf(fs), before.now + TriggerWindowMs)
    && (fs == [] ==> after.isRinging == before.isRinging && after.current == before.current && after.wakeLock == before.wakeLock)
    && (fs != [] ==> after.isRinging && after.current == Some(fs[|fs| - 1]) && after.wakeLock == lockFor(fs[|fs| - 1]))
    && after.releasedLocks == before.releasedLocks
  }

  /**
   * From `before` to `after` exactly the signals `fs` fired: they were
   * dispatched, `loops` looping elements were tracked and `beeps` beep
   * contexts registered.
   */
  predicate FiredBetween(before: TickState, after: TickState, fs: seq<Signal>,
                         lockFor: Signal -> Option<WakeLock>, loops: nat, beeps: nat)
  {
    && DispatchedBetween(before, after, fs, lockFor)
    && Extends(before.instances, after.instances, loops)
    && Extends(before.registered, after.registered, beeps)
  }

  /** Dispatching `fs` and then `s` is dispatching `fs + [s]`. */
  lemma DispatchedAppend(v0: TickState, v1: TickState, v2: TickState, fs: seq<Signal>, s: Signal,
                         lockFor: Signal -> Option<WakeLock>)
    requires DispatchedBetween(v0, v1, fs, lockFor)
    requires DispatchedBetween(v1, v2, [s], lockFor)
    ensures DispatchedBetween(v0, v2, fs + [s], lockFor)
  {
    KeysOfAppend(fs, s);
    KeysOfOne(s);
    StampedTwice(v0.timers, KeysOf(fs), {SignalKey(s)}, v0.now + TriggerWindowMs);
    AppendAssoc(v0.triggered, fs, [s]);
  }

  lemma KeysOfOne(s: Signal)
    ensures KeysOf([s]) == {SignalKey(s)}
  {
    assert forall f :: f in [s] <==> f == s;
  }

  lemma AppendAssoc<T>(a: seq<T>, b: seq<T>, c: seq<T>)
    ensures (a + b) + c == a + (b + c)
  {
  }

  /**
   * Firing `fs` and then, when `fired`, the signal `s` is firing
   * their concatenation, with the elements and contexts counted over it.
   */
  lemma FiredBetweenStep(v0: TickState, v1: TickState, v2: TickState, fs: seq<Signal>, s: Signal, fired: bool,
                         lockFor: Signal -> Option<WakeLock>,
                         ringtone: Option<string>, playSucceeds: Signal -> bool)
    requires FiredBetween(v0, v1, fs, lockFor, LoopCount(fs, ringtone, playSucceeds), BeepCount(fs, ringtone, playSucceeds))
    requires var loop := if fired && PlaysLoop(ringtone, playSucceeds, s) then 1 else 0;
      FiredBetween(v1, v2, if fired then [s] else [], lockFor, loop, (if fired then 1 else 0) - loop)
    ensures var fs' := if fired then fs + [s] else fs;
      FiredBetween(v0, v2, fs', lockFor, LoopCount(fs', ringtone, playSucceeds), BeepCount(fs', ringtone, playSucceeds))
  {
    if fired {
      FiredBetweenFire(v0, v1, v2, fs, s, lockFor, ringtone, playSucceeds);
    } else {
      ExtendsTrans(v0.instances, v1.instances, v2.instances, LoopCount(fs, ringtone, playSucceeds), 0);
      ExtendsTrans(v0.registered, v1.registered, v2.registered, BeepCount(fs, ringtone, playSucceeds), 0);
      assert KeysOf([]) == {};
      StampedNothing(v1.timers, v1.now + TriggerWindowMs);
      assert v2.triggered == v1.triggered;
    }
  }

  /** The firing case of `FiredBetweenStep`. */
  lemma FiredBetweenFire(v0: TickState, v1: TickState, v2: TickState, fs: seq<Signal>, s: Signal,
                         lockFor: Signal -> Option<WakeLock>,
                         ringtone: Option<string>, playSucceeds: Signal -> bool)
    requires FiredBetween(v0, v1, fs, lockFor, LoopCount(fs, ringtone, playSucceeds), BeepCount(fs, ringtone, playSucceeds))
    requires var loop := if PlaysLoop(ringtone, playSucceeds, s) then 1 else 0;
      FiredBetween(v1, v2, [s], lockFor, loop, 1 - loop)
    ensures FiredBetween(v0, v2, fs + [s], lockFor, LoopCount(fs + [s], ringtone, playSucceeds), BeepCount(fs + [s], ringtone, playSucceeds))
  {
    var loop := if PlaysLoop(ringtone, playSucceeds, s) then 1 else 0;
    DispatchedAppend(v0, v1, v2, fs, s, lockFor);
    LoopCountAppend(fs, s, ringtone, playSucceeds);
    ExtendsTrans(v0.instances, v1.instances, v2.instances, LoopCount(fs, ringtone, playSucceeds), loop);
    ExtendsTrans(v0.registered, v1.registered, v2.registered, BeepCount(fs, ringtone, playSucceeds), 1 - loop);
  }

  /**
   * One signal of the interval callback, as values: if the tick so far fired
   * `Fired` of the first `i` signals, then checking signal `i` against the
   * dedup set it finds extends both the fired list and the relation to the
   * first `i + 1` signals.
   */
  lemma TickStep(signals: seq<Signal>, i: nat, check: SignalTimeCheck, now: int, offset: int,
                 fs: seq<Signal>, v0: TickState, v1: TickState, v2: TickState, fired: bool,
                 lockFor: Signal -> Option<WakeLock>, ringtone: Option<string>, playSucceeds: Signal -> bool)
    requires i < |signals|
    requires fs == Fired(signals[..i], check, now, offset, v0.recent)
    requires FiredBetween(v0, v1, fs, lockFor, LoopCount(fs, ringtone, playSucceeds), BeepCount(fs, ringtone, playSucceeds))
    requires fired == (check(now, signals[i], offset) && SignalKey(signals[i]) !in v1.recent)
    requires var loop := if fired && PlaysLoop(ringtone, playSucceeds, signals[i]) then 1 else 0;
      FiredBetween(v1, v2, if fired then [signals[i]] else [], lockFor, loop, (if fired then 1 else 0) - loop)
    ensures var fs' := if fired then fs + [signals[i]] else fs;
      && fs' == Fired(signals[..i + 1], check, now, offset, v0.recent)
      && FiredBetween(v0, v2, fs', lockFor, LoopCount(fs', ringtone, playSucceeds), BeepCount(fs', ringtone, playSucceeds))
  {
    FiredStep(signals, i, check, now, offset, v0.recent);
    FiredBetweenStep(v0, v1, v2, fs, signals[i], fired, lockFor, ringtone, playSucceeds);
  }

  /** The dedup timer map after `keys` were each given the deadline `due`. */
  function Stamped(timers: map<string, int>, keys: set<string>, due: int): (r: map<string, int>)
    ensures r.Keys == timers.Keys + keys
  {
    map k | k in timers.Keys + keys :: if k in keys then due else timers[k]
  }

  /** Stamping no key leaves the map as it is. */
  lemma StampedNothing(timers: map<string, int>, due: int)
    ensures Stamped(timers, {}, due) == timers
  {
  }

  /** Every stamped key has the deadline, and every other key keeps its own. */
  lemma StampedValues(timers: map<string, int>, keys: set<string>, due: int)
    ensures forall k :: k in keys ==> Stamped(timers, keys, due)[k] == due
    ensures forall k :: k in timers && k !in keys ==> Stamped(timers, keys, due)[k] == timers[k]
  {
  }

  /** Stamping `k1` and then `k2` with the same deadline is stamping both. */
  lemma StampedTwice(timers: map<string, int>, k1: set<string>, k2: set<string>, due: int)
    ensures Stamped(Stamped(timers, k1, due), k2, due) == Stamped(timers, k1 + k2, due)
  {
  }

  /** Stamping one key is the map update of that key. */
  lemma StampedOne(timers: map<string, int>, k: string, due: int)
    ensures Stamped(timers, {k}, due) == timers[k := due]
  {
  }
}
